=== FILE: README.md ===
# Remini client decision core in Dafny

This project models the decision logic of `remini.py`, an asynchronous
client for the unofficial Remini image-enhancement API. Every network call
is replaced by the next value of a scripted list of responses. What is left
is a sequential program over JSON-like values:

- the Android header maps the client sends, and the merges that derive the
  common, setup, ping, upload and download headers from them;
- the token file: `_load_identity_token` and `_save_identity_token`;
- login: a profile probe of the cached token and, when it fails, a bootstrap
  through the setup endpoint and exactly one re-probe;
- task creation with its response validation and the object-storage
  upload; the processing ping; reprocessing;
- the status-poll loop, as recursion over the remaining script;
- the streamed download, as the concatenation of the response chunks;
- the two public workflows, `process` and `stylize`.

The modules are:

- `Values`: JSON values and Python truthiness.
- `Headers`: the header maps.
- `TokenStore`: the token file.
- `Service`: requests, responses and the scripted world. A `World` holds the
  device ids, the in-memory token, the token file, the remaining response
  script, the exchange log and the written files. `Extends(w, w2)` says that
  `w2` only appended exchanges to the log, and that each appended exchange
  consumed the next scripted response. `Added(w, w2)` is the list of
  appended exchanges.
- `Session`: profile, setup and login.
- `Tasks`: creation, upload, ping and reprocess.
- `Polling`: the status loop.
- `Artifact`: the download.
- `Workflows`: `process` and `stylize`.
- `Protocol`: a monitor that states the allowed request order as a
  transition system over phases, separate from the step functions. It
  reuses the decisions it must agree with: `Polling.Judge` for status
  answers, and `Session.MintsToken`, `Session.ProbeAccepted`,
  `Tasks.CreationAccepted` and `Tasks.ReprocessAccepted` for the other
  answers. `Next` is one transition and `Run` runs a whole
  log. The workflow lemmas prove that every log the workflows can produce is
  accepted by this monitor. The budget lemmas prove that an accepted log
  repeats no step: at most two probes and one setup, then one creation,
  one upload, one ping, one reprocess and one download.

Header maps are immutable values, so deriving one map from another never
changes the original; the source copies the base map for the same reason.

Python exceptions become `Err` values of `Service.Error`. An exception the
source does not catch becomes a `Crash`, with one exception: the errors
httpx raises while building a request (a header value or URL that is not a
string, or a header value that is not ASCII) are not modelled, and such a
request is sent as if it were valid (see "Left out"). The crashes are: an `AttributeError` is
`Crash(NotADict)`, a JSON decoding error of a response is `Crash(BadJson)`,
a token file that is not valid text is `Crash(BadEncoding)`, and httpx's
ResponseNotRead is `Crash(StreamNotRead)`. The source calls `raise_for_status`,
which raises for every code outside 200..299, so `IsSuccess` is exactly
that range. Running out of scripted responses gives `Err(Exhausted)`, and
the request that went unanswered is not logged.

The setup request is not a fresh, token-less request. The code
(`remini.py:140`) builds its headers from `_get_common_headers()`, so a
truthy token that the probe has just rejected is still sent with it.
`Headers.SetupHeaders` carries `identity-token` exactly when the token is
truthy, and `Session.LoginBootstrapsAfterRejection` shows that the setup
request after a rejected probe carries the rejected token.

Both workflows use `Artifact.Download`, whose failed download raises the
"Download failed" error that the handler means to raise. As written, the
handler raises something else; see "## Findings".

## Model

| member | source | states |
|---|---|---|
| Headers.BackupPersistentId | remini.py:51 | The backup persistent id is the Android id, then `_`, then the app package name. |
| Headers.AndroidHeaders | remini.py:84-103 | The base headers carry the fixed `okhttp/4.12.0` user agent and the device's Android id and advertising id, and they contain neither the token nor the content-type key. |
| Headers.CommonHeaders | remini.py:105-111 | The key set is the base keys, plus `identity-token` exactly when the token is truthy, plus `content-type` exactly when a non-empty type is given. The other keys keep their base values, and the added keys hold the token and the type. |
| Headers.ClientHeadersDifferOnlyInNamedKeys | remini.py:105-111 | Removing the two named keys from the common headers gives back the device headers unchanged, and each named key is present exactly when its value is supplied. |
| Headers.SetupHeaders | remini.py:139-150 | The setup request carries the token exactly when it is truthy (stale or not), has no content type, keeps the client user agent, and adds the install timestamp and the derived backup persistent id. |
| Headers.PingHeaders | remini.py:230-233 | The ping carries `content-length: 0`, and it carries the token exactly when the token is truthy. |
| Headers.UploadHeaders | remini.py:181-183 | The keys are the supplied keys plus `Content-Length` and `User-Agent`. Every other supplied value is unchanged. `Content-Length` is a decimal string that parses back to the body length, and `User-Agent` is the client's. |
| Headers.DownloadHeaders | remini.py:269 | The download sends the user agent and nothing else. |
| Decimal.ParseShow | remini.py:182 | The decimal rendering of a length parses back to that length. |
| Decimal.ShowInjective | remini.py:182 | Distinct lengths render as distinct strings. |
| TokenStore.Load | remini.py:113-120 | A missing file leaves the in-memory token as it was. A file that cannot be read or is not valid JSON yields `None`, and so does an object without `identity_token`. An object with the key yields that key's value. Valid JSON that is not an object raises, and so do bytes that are not valid text, because UnicodeDecodeError is not one of the caught exceptions. |
| TokenStore.Save | remini.py:122-125 | The file is rewritten only for a truthy token, and then it holds exactly `{"identity_token": token}`. |
| TokenStore.LoadAfterSave | remini.py:113-125 | Loading after saving a truthy token yields that token, whatever the in-memory token was. |
| TokenStore.SaveIdempotent | remini.py:122-125 | Saving the same token twice leaves the file as one save does. |
| TokenStore.LoadYieldsStoredOrCurrent | remini.py:113-120 | Loading yields only the current token, `None`, or the stored field. |
| Session.Profile | remini.py:164-175 | A falsy token answers false without a request. Otherwise exactly one probe with the common headers is sent. The answer is true exactly when the response is 2xx with a JSON object body, and false exactly when it is non-2xx. |
| Session.Setup | remini.py:139-162 | One setup request is sent. It succeeds exactly when the response is 2xx and `settings.__identity__.token` is truthy, and then that token is adopted and saved. Otherwise the token and the file are unchanged, and a non-2xx code is a setup HTTP error. |
| Session.Confirm | remini.py:135-136 | After a token is minted, exactly one probe is sent. A non-2xx answer raises the not-activated error. |
| Session.Bootstrap | remini.py:133-137 | A setup is followed by at most one probe, which is sent only after a token was minted and uses that token. Success holds exactly when the setup mints and the probe accepts. A rejected re-probe fails with no further request. On success the client holds the minted, saved token, and its last request was an accepted probe of it. |
| Session.Reprobe | remini.py:129-136 | A truthy cached token is probed first. An accepted probe ends the login successfully after that one request. A rejected probe is followed by the setup request, which carries the rejected token. The request sequence is a probe optionally followed by a bootstrap, and success ends on an accepted probe. |
| Session.Fallback | remini.py:133-136 | After one probe of the cached token, the bootstrap keeps the login shape, and its setup request is the second request of the login and carries the same token. |
| Session.Authenticate | remini.py:127-137 | A falsy token makes the setup request the first request. A truthy one is probed first; an accepted probe ends the login after one request, and a rejected one is followed by the setup request. Login ends authenticated on success. The first-run outcome of a falsy token is stated by `Session.LoginFirstRun`. |
| Session.Login | remini.py:127-137 | Login sends at most a probe, a setup and a probe, in that order, and writes no downloaded file. On success the last request was an accepted probe of the token the client ends up holding. A token file that raises on loading fails the login before any request. |
| Session.SetupToken | remini.py:156 | The chained lookup yields the token at `settings.__identity__.token` whenever that path exists through dicts. It raises exactly when `data`, `settings` or `__identity__` is present but not a dict. A result other than `None` comes from the full path; a missing step yields `None`. |
| Session.LoginFirstRun | remini.py:127-137 | With no truthy cached token, login succeeds exactly when setup mints a token and the probe of that token is accepted; it then holds the minted token and the file stores it. A setup that mints nothing fails after one request. After a mint exactly two requests are sent, the second probes the minted token, and a non-2xx answer to it fails as not activated. |
| Session.LoginBootstrapsWithoutToken | remini.py:127-134 | With no truthy cached token, the first request of login is the setup request; no probe comes first. |
| Session.LoginBootstrapsAfterRejection | remini.py:127-134 | A truthy cached token that the probe rejects is followed, as the second request, by the setup request carrying that token. |
| Session.LoginFailsOnRejectedReprobe | remini.py:127-136 | A rejected cached token, a minting setup and a rejected re-probe fail the login as not activated after exactly three requests. |
| Session.LoginHappyPath | remini.py:127-131 | A truthy cached token that the probe accepts ends the login after exactly that one request, with no setup. The token and the file are unchanged. |
| Session.LoginRecoversFromRejectedToken | remini.py:127-137 | A rejected cached token, a minting setup and an accepting probe give a successful login in exactly three requests. The client then holds the minted token, and the file stores it. |
| Tasks.FeatureOf | remini.py:302 | Decoding a feature payload gives back a feature whose payload is exactly that JSON. |
| Tasks.FeatureRoundTrip | remini.py:330 | The enhance and stylization payloads decode back to the feature they were built from. |
| Tasks.Payload | remini.py:330 | The payload's `type` is `enhance` exactly for the enhance feature, and a style payload names the style as its single pipeline id. |
| Tasks.MimeType | remini.py:191 | The content type is never empty: it is the guessed type when there is a non-empty guess, and `image/jpeg` otherwise. |
| Tasks.Metadata | remini.py:63-72 | The metadata always holds the file size. It holds width and height, with the image's dimensions, exactly when they could be read. |
| Tasks.TaskBody | remini.py:192-198 | The creation body has exactly the five source keys, and carries the feature payload, the metadata, the content type and the MD5 digest it was given. |
| Tasks.Upload | remini.py:177-188 | Upload headers that are not a JSON object raise before any request. Otherwise exactly one PUT of the body to the given URL is sent, with the upload headers. It succeeds exactly on 2xx, and any other code is an upload HTTP error. |
| Tasks.CreateTask | remini.py:190-213 | At most two requests are sent. The upload is sent only after a creation response that is 2xx, an object, and has truthy `task_id`, `upload_url` and `upload_headers`. A 2xx object missing one of them raises the missing-fields error. Success holds exactly when creation is accepted and the upload succeeds, and the result is the response's `task_id`. A non-2xx creation answer is the task-request HTTP error with its code. |
| Tasks.Ping | remini.py:230-238 | Exactly one processing POST for the task is sent, and it succeeds exactly on 2xx. |
| Tasks.Reprocess | remini.py:215-228 | Exactly one reprocess POST naming the base task and the feature is sent. It succeeds exactly when the response is 2xx with a truthy `task_id`, and that id is the result. A falsy id raises, and a non-2xx answer is the reprocess HTTP error with its code. |
| Polling.OutputUrl | remini.py:259-262 | A URL is returned exactly when `outputs` is a non-empty list whose first entry has a truthy `url`, and then it is that URL. It raises exactly when `result` is present but not an object, or when `outputs` is a non-empty list whose first entry is not an object. In every other case it yields `None`. |
| Polling.Judge | remini.py:248-264 | One response continues the loop exactly on 404, or on a 2xx object whose status is neither completed, failed nor error. Other non-2xx codes stop with a polling error. Failed and error stop with the response's `errors`. A completed response with a truthy `outputs[0].url` finishes with that URL, one without finishes with none, and a malformed `result` raises. |
| Polling.Poll | remini.py:240-264 | Every request is a status GET of the same task. Running out of script means every answer so far said continue. Otherwise the last answer is the first decisive one, and it determines the result. |
| Polling.PollExhaustedIff | remini.py:243-249 | The poll only runs out of responses when every remaining response says continue. |
| Polling.PollStopsAtFirstDecisive | remini.py:243-264 | When the first decisive response is at position k, the poll sends exactly k+1 requests and returns that response's verdict. |
| Polling.PollReturnsOutputUrl | remini.py:256-261 | When the first decisive response is a completion with a truthy `outputs[0].url`, the poll returns that URL. |
| Artifact.ConcatSize | remini.py:271-273 | The written file is as long as all chunks together. |
| Artifact.ChunkInPlace | remini.py:271-273 | Each chunk appears in the file at the offset given by the chunks before it. |
| Artifact.WriteStream | remini.py:271-273 | Writing the chunks in order produces their concatenation, with each chunk at its offset. |
| Artifact.Download | remini.py:266-275 | Exactly one GET of the URL is sent. On 2xx the destination holds the concatenated chunks and no other file changes. On any other code it is the intended download error carrying the status code, and no file changes. |
| Artifact.DownloadAsWritten | remini.py:268-275 | As written, a non-2xx download fails with httpx's ResponseNotRead instead of the download error. The requests and files are those of `Artifact.Download`. |
| Artifact.DownloadFailureLosesStatus | remini.py:274-275 | On a 404 the code as written fails with ResponseNotRead, while the intended error is the download error for 404. |
| Protocol.AtMostOnceEach | remini.py:127-337 | Any log the monitor accepts holds at most two probes and one setup, and at most one creation, upload, ping, reprocess and download. |
| Protocol.CountWithinBudget | remini.py:127-337 | From any phase, an accepted log spends no more requests of a kind than that phase allows. |
| Protocol.HaltedIsFinal | remini.py:258-283 | Once the monitor halts, no further request is accepted: a raised error ends the protocol. That the workflows halt it on every answer they raise on is stated by the `Follows` lemmas. |
| Protocol.EnhanceNeverReprocesses | remini.py:294-309 | The enhance workflow's monitor never accepts a reprocess request, from any phase. |
| Workflows.Deliver | remini.py:277-291 | A missing or falsy final URL raises before any download. Otherwise exactly one GET of that URL is sent, and it succeeds exactly on 2xx; any other code is the download error with that code. A failure writes no downloaded file, and the token and token file are untouched. |
| Workflows.Finish | remini.py:307-309 | Polling a task and delivering its URL writes only the destination on success and no downloaded file on failure, and leaves the token and the token file alone. |
| Workflows.Submit | remini.py:299-303 | Login followed by creating the enhance task writes no downloaded file. On success the task id is truthy and the client holds a truthy token. |
| Workflows.Restyle | remini.py:324-337 | Polling the base task, reprocessing it with the style and finishing on the new task writes only the destination on success and no downloaded file on failure. The token is untouched. |
| Workflows.Process | remini.py:294-309 | A missing input raises before any request. A failed run writes no downloaded file, though login may have rewritten the token file. A successful run writes only the destination among the downloaded files. |
| Workflows.Stylize | remini.py:311-337 | A missing input raises before any request. A failed run writes no downloaded file, though login may have rewritten the token file. A successful run writes only the destination among the downloaded files. |
| Workflows.BootstrapFollows | remini.py:133-137 | A bootstrap log (setup, then one probe) is accepted from the start or after a refused probe, and a success leaves the monitor authenticated. Any failure other than running out of answers leaves the monitor halted. It never leaves the monitor delivered. |
| Workflows.LoginFollows | remini.py:127-137 | Every login log is accepted by the monitor, and a successful one leaves it authenticated. Once the token file has loaded, any failure other than running out of answers leaves the monitor halted. It never leaves the monitor delivered. |
| Workflows.CreateFollows | remini.py:190-213 | Creation and upload after login are accepted, and a success leaves the monitor at the uploaded task. Any failure other than running out of answers leaves the monitor halted. It never leaves the monitor delivered. |
| Workflows.PollFollows | remini.py:240-264 | Every poll log is accepted. A URL leaves the monitor ready with that URL, and a completion without one halts it. Any failure other than running out of answers leaves the monitor halted, and running out of answers leaves it waiting on the same task. |
| Workflows.SubmitFollows | remini.py:299-303 | Login followed by the enhance task's creation and upload is accepted, and a success leaves the monitor at the uploaded task. Once the token file has loaded, any failure other than running out of answers leaves the monitor halted. It never leaves the monitor delivered. |
| Workflows.FinishFollows | remini.py:277-291 | Polling a final task and then delivering is accepted. A success has downloaded, and the destination holds the chunks of the last response. Any failure other than running out of answers leaves the monitor halted. The monitor ends delivered exactly when the run succeeds. |
| Workflows.ProcessFollowsProtocol | remini.py:294-309 | Every `process` log is accepted in the order login, create with the enhance payload, upload, ping, poll, download. A missing input sends nothing. A success has delivered, and the destination holds the chunks of the last response. With the input present and the token file loaded, any failure other than running out of answers leaves the monitor halted. The monitor ends delivered exactly when the run succeeds. |
| Workflows.ProcessRequestBudget | remini.py:294-309 | `process` sends at most two probes and one setup, at most one of each later request, and no reprocess. |
| Workflows.RestyleFollows | remini.py:324-337 | After the base ping, the base poll must yield a URL before the reprocess of the base task with the style payload. Only the new task's id is polled before the download. Any failure other than running out of answers leaves the monitor halted. The monitor ends delivered exactly when the run succeeds. |
| Workflows.StylizeFollowsProtocol | remini.py:311-337 | Every `stylize` log is accepted by the style's monitor, and a success has delivered the last response's chunks. With the input present and the token file loaded, any failure other than running out of answers leaves the monitor halted. The monitor ends delivered exactly when the run succeeds. |
| Workflows.StylizeRequestBudget | remini.py:311-337 | `stylize` sends at most two probes and one setup, and at most one of each later request. |

## Left out

- The httpx transport, `async`/`await` and the five-second `asyncio.sleep` before each status request are left out. Responses are scripted values consumed in call order. The poll loop, which is unbounded in the source, ends when the script runs out, with an extra `Exhausted` error.
- MD5 hashing, base64 encoding, `mimetypes.guess_type` and the Pillow width and height are inputs of `Tasks.ImageFile`. Only the `image/jpeg` fallback is modelled.
- The device ids come from `uuid` and are inputs (`Headers.DeviceIds`). The install timestamp of the setup headers is an input string, because it reads the clock.
- The default output file name (built from the clock and the input path) is left out; the destination is a parameter.
- Logging, and the logging configuration done by `_process_common`, is left out because it is a process-wide side effect.
- The JSON text of the token file is left out. `TokenStore.TokenFile` records the decoded document, or that the file could not be read, was not valid text, or was not valid JSON.
- The existence check on the input file is the `present` flag of `Tasks.ImageFile`, and the file's bytes are its `content`.
- A failure while writing the token file or the download (an `IOError`) is left out. Writes always succeed in the model.
- JSON numbers are integers. Floating-point values are left out, because the core only tests them for truthiness.
- Headers.AndroidHeaders: the contract names only the user agent and the two ids, not the other twelve fixed values, which are listed in its definition.
- Session.Profile: the balance that the probe logs is not modelled.
- Session.Profile: a truthy token that is not an ASCII string makes httpx raise TypeError or UnicodeEncodeError while building the probe at remini.py:169, and `_get_user_profile` does not catch it. The model sends the probe with that value as the `identity-token` header.
- Session.Confirm: the same holds for a minted token that is not an ASCII string, such as the number 7 saved at remini.py:159-160. The model probes with it instead of raising.
- Session.Reprobe: the probe of a cached token that is not an ASCII string is sent, where the source raises before sending.
- Session.LoginFirstRun: its success case includes minted tokens that are not ASCII strings, for which the source raises at the probe instead of logging in.
- Session.LoginHappyPath: the cached token is assumed to be a header value httpx accepts; otherwise the source raises at the probe.
- Session.LoginRecoversFromRejectedToken: the minted token is assumed to be a header value httpx accepts; otherwise the source raises at the re-probe.
- Session.LoginFailsOnRejectedReprobe: the minted token is assumed to be a header value httpx accepts; otherwise the source raises at the re-probe after two requests.
- Tasks.Upload: an `upload_url` that is not a string, or a supplied header name or value that is not an ASCII string, makes httpx raise TypeError or UnicodeEncodeError at remini.py:185. The model sends the PUT.
- Tasks.CreateTask: inherits the `Tasks.Upload` gap for the upload it starts.
- Artifact.Download: an output URL that is not a string makes httpx raise TypeError at remini.py:269. The model sends the GET.
- Workflows.Deliver: inherits the `Artifact.Download` gap for a truthy URL that is not a string.
- Workflows.Process: the workflows and their protocol lemmas inherit the gaps above. A request-building error would fail a run before anything is sent, so the monitor would stay where it was instead of halting.
- Workflows.Stylize: as for `Workflows.Process`.

## Findings

| source | as written | input that shows it | evidently intended | confidence | as-written member | corrected member |
|---|---|---|---|---|---|---|
| remini.py:268-275 | The download is streamed, so its body is never read. When `raise_for_status` raises, the handler reads `e.response.text`, and httpx raises ResponseNotRead for an unread streamed response. That error escapes instead of the handler's own. | Any non-2xx answer to the download, such as 404. | Raise "Download failed" with the status code. | medium; not executed; rests on how httpx treats an unread streamed response | Artifact.DownloadAsWritten, Artifact.DownloadFailureLosesStatus | Artifact.Download |

=== FILE: decimal.dfy ===
/**
 * Python's `str(n)` for a non-negative integer, as used for the
 * `Content-Length` upload header, and the reading a server applies to it.
 */
module Decimal {

  predicate IsDigit(c: char) {
    '0' <= c <= '9'
  }

  predicate AllDigits(s: string) {
    forall i :: 0 <= i < |s| ==> IsDigit(s[i])
  }

  function DigitChar(d: nat): (c: char)
    requires d < 10
    ensures IsDigit(c) && (c as int) - ('0' as int) == d
  {
    (('0' as int) + d) as char
  }

  /** The decimal numeral of `n`: digits only, and no leading zero unless `n` is zero. */
  function Show(n: nat): (s: string)
    ensures |s| > 0 && AllDigits(s)
    ensures s[0] == '0' ==> n == 0
    decreases n
  {
    if n < 10 then [DigitChar(n)] else Show(n / 10) + [DigitChar(n % 10)]
  }

  /** The value of a string of decimal digits (the empty string reads as zero). */
  function Parse(s: string): nat
    requires AllDigits(s)
  {
    if |s| == 0 then 0
    else Parse(s[..|s| - 1]) * 10 + ((s[|s| - 1] as int) - ('0' as int))
  }

  /** Reading back a rendered numeral yields the number it was rendered from. */
  lemma {:induction false} ParseShow(n: nat)
    ensures Parse(Show(n)) == n
    decreases n
  {
    if n >= 10 {
      var s := Show(n);
      assert s[..|s| - 1] == Show(n / 10);
      ParseShow(n / 10);
    }
  }

  /** Two lengths render to the same numeral only if they are equal. */
  lemma ShowInjective(m: nat, n: nat)
    requires Show(m) == Show(n)
    ensures m == n
  {
    ParseShow(m);
    ParseShow(n);
  }
}

=== FILE: download.dfy ===
/**
 * The artifact download: one streamed GET whose chunks are written to the
 * destination file in the order they arrive.
 */
module Artifact {
  import opened Wrappers
  import opened Values
  import opened Headers
  import opened Service

  /** The bytes of a run of chunks, one after another. */
  function Concat(chunks: seq<seq<byte>>): seq<byte> {
    if |chunks| == 0 then [] else Concat(chunks[..|chunks| - 1]) + chunks[|chunks| - 1]
  }

  /** The total number of bytes in a run of chunks. */
  function TotalSize(chunks: seq<seq<byte>>): nat {
    if |chunks| == 0 then 0 else TotalSize(chunks[..|chunks| - 1]) + |chunks[|chunks| - 1]|
  }

  /** Where chunk `i` starts in the written file. */
  function Offset(chunks: seq<seq<byte>>, i: nat): nat
    requires i <= |chunks|
  {
    |Concat(chunks[..i])|
  }

  lemma {:induction false} ConcatAppend(a: seq<seq<byte>>, b: seq<seq<byte>>)
    ensures Concat(a + b) == Concat(a) + Concat(b)
    decreases |b|
  {
    if |b| == 0 {
      assert a + b == a;
    } else {
      var b' := b[..|b| - 1];
      assert (a + b)[..|a + b| - 1] == a + b';
      ConcatAppend(a, b');
    }
  }

  lemma {:induction false} ConcatSize(chunks: seq<seq<byte>>)
    ensures |Concat(chunks)| == TotalSize(chunks)
    decreases |chunks|
  {
    if |chunks| > 0 {
      ConcatSize(chunks[..|chunks| - 1]);
    }
  }

  /** Chunk `i` appears in the file, whole, at its offset: nothing is dropped, duplicated or reordered. */
  lemma ChunkInPlace(chunks: seq<seq<byte>>, i: nat)
    requires i < |chunks|
    ensures Offset(chunks, i) + |chunks[i]| <= |Concat(chunks)|
    ensures Concat(chunks)[Offset(chunks, i)..Offset(chunks, i) + |chunks[i]|] == chunks[i]
  {
    assert chunks == chunks[..i] + [chunks[i]] + chunks[i + 1..];
    ConcatAppend(chunks[..i] + [chunks[i]], chunks[i + 1..]);
    ConcatAppend(chunks[..i], [chunks[i]]);
    assert Concat([chunks[i]]) == chunks[i] by {
      assert [chunks[i]][..0] == [];
    }
  }

  /**
   * The write loop of the download: appends each chunk to the file as it
   * arrives. The file ends up holding every chunk, in order, at its offset.
   */
  method WriteStream(chunks: seq<seq<byte>>) returns (file: seq<byte>)
    ensures |file| == TotalSize(chunks)
    ensures forall i :: 0 <= i < |chunks| ==>
      Offset(chunks, i) + |chunks[i]| <= |file| && file[Offset(chunks, i)..Offset(chunks, i) + |chunks[i]|] == chunks[i]
    ensures file == Concat(chunks)
  {
    file := [];
    var n := 0;
    while n < |chunks|
      invariant n <= |chunks|
      invariant file == Concat(chunks[..n])
    {
      assert chunks[..n + 1][..n] == chunks[..n];
      file := file + chunks[n];
      n := n + 1;
    }
    assert chunks[..n] == chunks;
    ConcatSize(chunks);
    forall i | 0 <= i < |chunks|
      ensures Offset(chunks, i) + |chunks[i]| <= |file|
      ensures file[Offset(chunks, i)..Offset(chunks, i) + |chunks[i]|] == chunks[i]
    {
      ChunkInPlace(chunks, i);
    }
  }

  function DownloadRequest(url: Json): Request {
    DownloadGet(url, DownloadHeaders())
  }

  /**
   * Downloads `url` to `dest`: one GET carrying only the user agent; a 2xx
   * answer writes its chunks to `dest`, anything else raises and writes
   * nothing.
   */
  function Download(w: World, url: Json, dest: string): (r: Step<()>)
    ensures Extends(w, r.world)
    ensures r.world.token == w.token && r.world.tokenFile == w.tokenFile
    ensures |w.script| > 0 ==> Added(w, r.world) == [Exchange(DownloadRequest(url), w.script[0])]
    ensures r.result.Ok? <==> |w.script| > 0 && IsSuccess(w.script[0].code)
    ensures r.result.Ok? ==> r.world.files == w.files[dest := Concat(w.script[0].chunks)]
    ensures r.result.Err? ==> r.world.files == w.files
    ensures |w.script| > 0 && !IsSuccess(w.script[0].code) ==> r.result == Err(DownloadHttp(w.script[0].code))
  {
    if |w.script| == 0 then
      ExtendsRefl(w);
      Step(Err(Exhausted), w)
    else
      var resp := w.script[0];
      SendExtends(w, DownloadRequest(url));
      var w1 := Send(w, DownloadRequest(url));
      if !IsSuccess(resp.code) then Step(Err(DownloadHttp(resp.code)), w1)
      else Step(Ok(()), w1.(files := w1.files[dest := Concat(resp.chunks)]))
  }

  /**
   * The download as its handler is written. The response is streamed and
   * its body is never read, so when `raise_for_status` raises, the handler's
   * `e.response.text` raises httpx's ResponseNotRead in turn: that, not the
   * "Download failed" error, escapes. Everything else is as in `Download`.
   */
  function DownloadAsWritten(w: World, url: Json, dest: string): (r: Step<()>)
    ensures r.world == Download(w, url, dest).world
    ensures r.result.Ok? <==> |w.script| > 0 && IsSuccess(w.script[0].code)
    ensures |w.script| > 0 && !IsSuccess(w.script[0].code) ==> r.result == Err(Crash(StreamNotRead))
  {
    var d := Download(w, url, dest);
    if |w.script| > 0 && !IsSuccess(w.script[0].code) then Step(Err(Crash(StreamNotRead)), d.world)
    else d
  }

  /**
   * A missing artifact (404): as written the client fails with
   * ResponseNotRead and the status code is lost; the intended download
   * error carries the code.
   */
  lemma DownloadFailureLosesStatus(w: World, url: Json, dest: string)
    requires |w.script| > 0 && w.script[0].code == 404
    ensures DownloadAsWritten(w, url, dest).result == Err(Crash(StreamNotRead))
    ensures Download(w, url, dest).result == Err(DownloadHttp(404))
  {
  }
}

=== FILE: headers.dfy ===
/**
 * The header maps the client sends: the fixed Android device headers, the
 * common headers derived from them, and the per-request variants (setup,
 * processing ping, object-storage upload, download).
 */
module Headers {
  import opened Wrappers
  import opened Values
  import Decimal

  /** Header name to header value; values are kept as decoded JSON because upload headers come from a response body. */
  type HeaderMap = map<string, Json>

  /** The synthetic device identifiers generated once per client; their random generation is an input here. */
  datatype DeviceIds = DeviceIds(androidId: string, aaid: string, nonBackupPersistentId: string)

  const AppPackage := "com.bigwinepot.nwdn.international"
  const UserAgent := "okhttp/4.12.0"
  const JsonContentType := "application/json; charset=UTF-8"
  const AppSetId := "d44bd45a-a45d-4470-9674-7348a8e3fb71"

  const TokenHeader := "identity-token"
  const ContentTypeHeader := "content-type"

  /** The persistent id the app derives from the Android id. */
  function BackupPersistentId(ids: DeviceIds): (b: string)
    ensures |b| > |ids.androidId| && b[..|ids.androidId|] == ids.androidId
    ensures b[|ids.androidId|] == '_' && b[|ids.androidId| + 1..] == AppPackage
  {
    ids.androidId + "_" + AppPackage
  }

  /** The base headers of every Remini API request: fixed device description plus the device ids. */
  function AndroidHeaders(ids: DeviceIds): (h: HeaderMap)
    ensures TokenHeader !in h && ContentTypeHeader !in h
    ensures "user-agent" in h && h["user-agent"] == Str(UserAgent)
    ensures "android-id" in h && h["android-id"] == Str(ids.androidId)
    ensures "aaid" in h && h["aaid"] == Str(ids.aaid)
  {
    map[
      "bsp-id" := Str(AppPackage + ".android"),
      "build-number" := Str("202514479"),
      "build-version" := Str("3.7.1020"),
      "country" := Str("US"),
      "device-manufacturer" := Str("Samsung"),
      "device-model" := Str("SM-G998B"),
      "device-type" := Str("6.8"),
      "language" := Str("en"),
      "locale" := Str("en_US"),
      "os-version" := Str("33"),
      "platform" := Str("Android"),
      "timezone" := Str("America/New_York"),
      "android-id" := Str(ids.androidId),
      "aaid" := Str(ids.aaid),
      "accept-encoding" := Str("gzip"),
      "user-agent" := Str(UserAgent)
    ]
  }

  /** Python's `if content_type:` on an optional string. */
  predicate Given(contentType: Option<string>) {
    contentType.Some? && |contentType.value| > 0
  }

  /**
   * A copy of the base headers, with the session token added when it is
   * truthy and the content type added when one is given.
   */
  function CommonHeaders(base: HeaderMap, token: Json, contentType: Option<string>): (h: HeaderMap)
    ensures forall k :: k in h <==>
      k in base || (k == TokenHeader && Truthy(token)) || (k == ContentTypeHeader && Given(contentType))
    ensures forall k :: k in base && k != TokenHeader && k != ContentTypeHeader ==> h[k] == base[k]
    ensures Truthy(token) ==> h[TokenHeader] == token
    ensures Given(contentType) ==> h[ContentTypeHeader] == Str(contentType.value)
  {
    var withToken := if Truthy(token) then base[TokenHeader := token] else base;
    if Given(contentType) then withToken[ContentTypeHeader := Str(contentType.value)] else withToken
  }

  /** The common headers of a client whose base is the device headers. */
  function ClientHeaders(ids: DeviceIds, token: Json, contentType: Option<string>): HeaderMap {
    CommonHeaders(AndroidHeaders(ids), token, contentType)
  }

  /**
   * Over the device headers, the common headers differ from the base only
   * in the token and content-type keys, each present exactly when supplied.
   */
  lemma ClientHeadersDifferOnlyInNamedKeys(ids: DeviceIds, token: Json, contentType: Option<string>)
    ensures var h := ClientHeaders(ids, token, contentType);
      && (TokenHeader in h <==> Truthy(token))
      && (ContentTypeHeader in h <==> Given(contentType))
      && h - {TokenHeader, ContentTypeHeader} == AndroidHeaders(ids)
  {
    var h := ClientHeaders(ids, token, contentType);
    var base := AndroidHeaders(ids);
    var stripped := h - {TokenHeader, ContentTypeHeader};
    assert stripped.Keys == base.Keys;
    forall k | k in base
      ensures stripped[k] == base[k]
    {
      assert k != TokenHeader && k != ContentTypeHeader;
    }
  }

  /** The headers the setup request adds to the common ones, the install timestamp given as a string. */
  function SetupExtras(ids: DeviceIds, installTimestamp: string): (e: HeaderMap)
    ensures TokenHeader !in e && ContentTypeHeader !in e && "user-agent" !in e
    ensures "backup-persistent-id" in e && e["backup-persistent-id"] == Str(BackupPersistentId(ids))
    ensures "first-install-timestamp" in e && e["first-install-timestamp"] == Str(installTimestamp)
  {
    map[
      "first-install-timestamp" := Str(installTimestamp),
      "backup-persistent-id" := Str(BackupPersistentId(ids)),
      "non-backup-persistent-id" := Str(ids.nonBackupPersistentId),
      "environment" := Str("Production"),
      "settings-response-version" := Str("v2"),
      "is-app-running-in-background" := Str("false"),
      "is-old-user" := Str("true"),
      "app-set-id" := Str(AppSetId)
    ]
  }

  /**
   * Headers of the setup request: the common headers without a content
   * type, updated with the installation metadata. A truthy token, even a
   * stale one, is still carried.
   */
  function SetupHeaders(ids: DeviceIds, token: Json, installTimestamp: string): (h: HeaderMap)
    ensures TokenHeader in h <==> Truthy(token)
    ensures Truthy(token) ==> h[TokenHeader] == token
    ensures ContentTypeHeader !in h
    ensures "user-agent" in h && h["user-agent"] == Str(UserAgent)
    ensures "first-install-timestamp" in h && h["first-install-timestamp"] == Str(installTimestamp)
    ensures "backup-persistent-id" in h && h["backup-persistent-id"] == Str(BackupPersistentId(ids))
  {
    var c := ClientHeaders(ids, token, None);
    var e := SetupExtras(ids, installTimestamp);
    ClientHeadersDifferOnlyInNamedKeys(ids, token, None);
    c + e
  }

  /** Headers of the processing ping: the common headers plus an explicit zero content length. */
  function PingHeaders(ids: DeviceIds, token: Json): (h: HeaderMap)
    ensures "content-length" in h && h["content-length"] == Str("0")
    ensures TokenHeader in h <==> Truthy(token)
  {
    ClientHeaders(ids, token, None)["content-length" := Str("0")]
  }

  /**
   * Headers of the object-storage upload: the headers the task response
   * supplied, plus the body length and the client's user agent; no other
   * key is added or changed.
   */
  function UploadHeaders(supplied: HeaderMap, length: nat): (h: HeaderMap)
    ensures h.Keys == supplied.Keys + {"Content-Length", "User-Agent"}
    ensures forall k :: k in supplied && k != "Content-Length" && k != "User-Agent" ==> h[k] == supplied[k]
    ensures "Content-Length" in h && h["Content-Length"].Str? && Decimal.AllDigits(h["Content-Length"].s)
    ensures "Content-Length" in h && h["Content-Length"].Str? && Decimal.Parse(h["Content-Length"].s) == length
    ensures "User-Agent" in h && h["User-Agent"] == Str(UserAgent)
  {
    Decimal.ParseShow(length);
    supplied["Content-Length" := Str(Decimal.Show(length))]["User-Agent" := Str(UserAgent)]
  }

  /** Headers of the artifact download: the user agent alone. */
  function DownloadHeaders(): (h: HeaderMap)
    ensures h.Keys == {"user-agent"} && "user-agent" in h && h["user-agent"] == Str(UserAgent)
  {
    map["user-agent" := Str(UserAgent)]
  }
}

=== FILE: polling.dfy ===
/**
 * The status poller: one GET per scripted response until the task is
 * terminal. The source loops forever; here the loop runs over the responses
 * the service has left and ends in `Exhausted` when they run out.
 */
module Polling {
  import opened Wrappers
  import opened Values
  import opened Headers
  import opened Service

  /** What one status response tells the poller to do. */
  datatype Verdict = Continue | Finish(url: Option<Json>) | Stop(error: Error)

  /** The `status` field of a status body. */
  function Status(data: map<string, Json>): Json {
    Field(data, "status")
  }

  predicate IsTerminal(status: Json) {
    status == Str("completed") || status == Str("failed") || status == Str("error")
  }

  /** `data["result"]["outputs"][0]["url"]` is present and truthy, and is `u`. */
  predicate HasOutputUrl(data: map<string, Json>, u: Json) {
    && "result" in data && data["result"].Obj?
    && "outputs" in data["result"].fields
    && var outputs := data["result"].fields["outputs"];
    && outputs.Arr? && |outputs.items| > 0
    && outputs.items[0].Obj?
    && "url" in outputs.items[0].fields
    && outputs.items[0].fields["url"] == u
    && Truthy(u)
  }

  /**
   * A receiver of the chained lookup is present but not a dict: `result`
   * itself, or the first entry of a truthy `outputs` list.
   */
  predicate OutputsBroken(data: map<string, Json>) {
    && "result" in data
    && (|| !data["result"].Obj?
        || (&& "outputs" in data["result"].fields
            && var outputs := data["result"].fields["outputs"];
            && outputs.Arr? && |outputs.items| > 0
            && !outputs.items[0].Obj?))
  }

  /**
   * The URL of a completed task: the first output's truthy `url`, `None`
   * when `outputs` is falsy, not a list, or its first entry has no truthy
   * url. A first entry that is not a dict raises.
   */
  function OutputUrl(data: map<string, Json>): (r: Result<Option<Json>, Error>)
    ensures r.Ok? && r.value.Some? ==> HasOutputUrl(data, r.value.value)
    ensures forall u {:trigger HasOutputUrl(data, u)} :: HasOutputUrl(data, u) ==> r == Ok(Some(u))
    ensures r.Err? <==> OutputsBroken(data)
    ensures r.Err? ==> r.error == Crash(NotADict)
    ensures !OutputsBroken(data) && (forall u {:trigger HasOutputUrl(data, u)} :: !HasOutputUrl(data, u)) ==> r == Ok(None)
  {
    var result := if "result" in data then data["result"] else Obj(map[]);
    match Get(result, "outputs", Null)
    case None => Err(Crash(NotADict))
    case Some(outputs) =>
      if Truthy(outputs) && outputs.Arr? then
        match Get(outputs.items[0], "url", Null)
        case None => Err(Crash(NotADict))
        case Some(url) =>
          assert Truthy(url) ==> HasOutputUrl(data, url);
          Ok(if Truthy(url) then Some(url) else None)
      else Ok(None)
  }

  /** A 2xx JSON object whose `status` is `"completed"`. */
  predicate CompletedBody(resp: Response) {
    IsSuccess(resp.code) && resp.body.Some? && resp.body.value.Obj? && Status(resp.body.value.fields) == Str("completed")
  }

  /**
   * One iteration of the poll loop on a response: keep polling on 404 and
   * on any non-terminal status; fail on other non-2xx codes and on a
   * failed or errored task; finish on a completed one.
   */
  function Judge(resp: Response): (v: Verdict)
    ensures v == Continue <==>
      resp.code == 404
      || (IsSuccess(resp.code) && resp.body.Some? && resp.body.value.Obj? && !IsTerminal(Status(resp.body.value.fields)))
    ensures v.Finish? ==>
      IsSuccess(resp.code) && resp.body.Some? && resp.body.value.Obj? && Status(resp.body.value.fields) == Str("completed")
    ensures v.Finish? && v.url.Some? ==> HasOutputUrl(resp.body.value.fields, v.url.value)
    ensures forall u {:trigger HasOutputUrl(resp.body.value.fields, u)} ::
      CompletedBody(resp) && HasOutputUrl(resp.body.value.fields, u) ==> v == Finish(Some(u))
    ensures CompletedBody(resp) && OutputUrl(resp.body.value.fields) == Ok(None) ==> v == Finish(None)
    ensures CompletedBody(resp) && OutputsBroken(resp.body.value.fields) ==> v == Stop(Crash(NotADict))
    ensures v.Stop? ==> v.error != Exhausted
    ensures resp.code != 404 && !IsSuccess(resp.code) ==> v == Stop(PollHttp(resp.code))
    ensures (IsSuccess(resp.code) && resp.body.Some? && resp.body.value.Obj?
             && (Status(resp.body.value.fields) == Str("failed") || Status(resp.body.value.fields) == Str("error")))
      ==> v == Stop(TaskFailed(Field(resp.body.value.fields, "errors")))
  {
    if resp.code == 404 then Continue
    else if !IsSuccess(resp.code) then Stop(PollHttp(resp.code))
    else if resp.body.None? then Stop(Crash(BadJson))
    else if !resp.body.value.Obj? then Stop(Crash(NotADict))
    else
      var data := resp.body.value.fields;
      var status := Status(data);
      if status == Str("completed") then
        match OutputUrl(data)
        case Err(e) => Stop(e)
        case Ok(url) => Finish(url)
      else if status == Str("failed") || status == Str("error") then Stop(TaskFailed(Field(data, "errors")))
      else Continue
  }

  /** The result a decisive verdict ends the poll with. */
  function Outcome(v: Verdict): Result<Option<Json>, Error>
    requires v != Continue
  {
    match v
    case Finish(url) => Ok(url)
    case Stop(e) => Err(e)
  }

  function StatusRequest(w: World, taskId: Json): Request {
    StatusGet(taskId, ClientHeaders(w.ids, w.token, None))
  }

  /** Every exchange of the run asked the poller to continue. */
  predicate AllContinue(es: seq<Exchange>) {
    forall i :: 0 <= i < |es| ==> Judge(es[i].resp) == Continue
  }

  /** Every exchange of the run sent request `req`. */
  predicate AllAsk(es: seq<Exchange>, req: Request) {
    forall i :: 0 <= i < |es| ==> es[i].req == req
  }

  /** Every exchange but the last asked to continue, and the last decided. */
  predicate DecidedAtLast(es: seq<Exchange>) {
    && |es| > 0
    && AllContinue(es[..|es| - 1])
    && Judge(es[|es| - 1].resp) != Continue
  }

  /** The result the last, decisive exchange of a run ends the poll with. */
  function Decision(es: seq<Exchange>): Result<Option<Json>, Error>
    requires DecidedAtLast(es)
  {
    Outcome(Judge(es[|es| - 1].resp))
  }

  /** A continuing exchange in front of a run keeps what the run says about itself. */
  lemma PrependContinue(e: Exchange, es: seq<Exchange>, req: Request)
    requires Judge(e.resp) == Continue && e.req == req && AllAsk(es, req)
    ensures AllAsk([e] + es, req)
    ensures AllContinue(es) ==> AllContinue([e] + es)
    ensures DecidedAtLast(es) ==> DecidedAtLast([e] + es) && Decision([e] + es) == Decision(es)
  {
    var es' := [e] + es;
    if DecidedAtLast(es) {
      assert es'[..|es'| - 1] == [e] + es[..|es| - 1];
    }
  }

  /**
   * Polls `taskId`: only status requests are sent, each with the client's
   * common headers; every answer but the last said to keep going, and the
   * last one decided the result. Without a decisive answer the script runs
   * out and the result is `Exhausted`.
   */
  function Poll(w: World, taskId: Json): (r: Step<Option<Json>>)
    ensures Extends(w, r.world) && r.world == w.(script := r.world.script, log := r.world.log)
    ensures AllAsk(Added(w, r.world), StatusRequest(w, taskId))
    ensures r.result == Err(Exhausted) ==> r.world.script == [] && AllContinue(Added(w, r.world))
    ensures r.result != Err(Exhausted) ==> DecidedAtLast(Added(w, r.world)) && Decision(Added(w, r.world)) == r.result
    ensures r.result.Ok? && r.result.value.Some? ==> Truthy(r.result.value.value)
    decreases |w.script|
  {
    if |w.script| == 0 then
      ExtendsRefl(w);
      Step(Err(Exhausted), w)
    else
      var req := StatusRequest(w, taskId);
      var e := Exchange(req, w.script[0]);
      SendExtends(w, req);
      var w1 := Send(w, req);
      match Judge(w.script[0])
      case Continue =>
        var r := Poll(w1, taskId);
        ExtendsTrans(w, w1, r.world);
        PrependContinue(e, Added(w1, r.world), req);
        r
      case Finish(url) => Step(Ok(url), w1)
      case Stop(e) => Step(Err(e), w1)
  }

  /** The poll runs out of responses exactly when no response in the script is decisive. */
  lemma PollExhaustedIff(w: World, taskId: Json)
    ensures Poll(w, taskId).result == Err(Exhausted) <==>
      forall i :: 0 <= i < |w.script| ==> Judge(w.script[i]) == Continue
  {
    var r := Poll(w, taskId);
    var es := Added(w, r.world);
    assert w.script == Replies(es) + r.world.script;
    if r.result == Err(Exhausted) {
      forall i | 0 <= i < |w.script|
        ensures Judge(w.script[i]) == Continue
      {
        assert w.script[i] == es[i].resp;
      }
    } else {
      var k := |es| - 1;
      assert w.script[k] == es[k].resp;
    }
  }

  /**
   * When the first decisive response sits at index `k`, the poll sends
   * exactly `k + 1` requests and ends with that response's outcome.
   */
  lemma PollStopsAtFirstDecisive(w: World, taskId: Json, k: nat)
    requires k < |w.script| && Judge(w.script[k]) != Continue
    requires forall i :: 0 <= i < k ==> Judge(w.script[i]) == Continue
    ensures var r := Poll(w, taskId);
      && r.result == Outcome(Judge(w.script[k]))
      && |Added(w, r.world)| == k + 1
      && r.world.script == w.script[k + 1..]
  {
    var r := Poll(w, taskId);
    var es := Added(w, r.world);
    assert w.script == Replies(es) + r.world.script;
    PollExhaustedIff(w, taskId);
    assert r.result != Err(Exhausted);
    var m := |es| - 1;
    assert w.script[m] == es[m].resp;
    if m < k {
      assert false;
    } else if k < m {
      assert false;
    }
    assert r.world.script == w.script[k + 1..];
  }

  /**
   * When the first decisive status response is a completion carrying a
   * truthy `outputs[0].url`, the poll returns exactly that URL.
   */
  lemma PollReturnsOutputUrl(w: World, taskId: Json, k: nat, u: Json)
    requires k < |w.script| && CompletedBody(w.script[k])
    requires HasOutputUrl(w.script[k].body.value.fields, u)
    requires forall i :: 0 <= i < k ==> Judge(w.script[i]) == Continue
    ensures Poll(w, taskId).result == Ok(Some(u))
  {
    PollStopsAtFirstDecisive(w, taskId, k);
  }
}

=== FILE: protocol.dfy ===
/**
 * The client's request protocol as a monitor over the exchange log: which
 * request may come next given what the service has answered so far. A
 * workflow's log follows the protocol when the monitor accepts it; the
 * monitor halts after any answer the client treats as fatal, so nothing may
 * follow one.
 */
module Protocol {
  import opened Wrappers
  import opened Values
  import opened Headers
  import opened Service
  import opened Session
  import opened Tasks
  import opened Polling
  import opened Artifact

  /** Where a workflow stands, with the ids and URLs learnt so far. */
  datatype Phase =
    | Start                                           // nothing sent
    | Refused                                         // the cached token's probe was refused
    | Minted                                          // setup minted a token
    | Authed                                          // a probe was accepted
    | Created(taskId: Json, uploadUrl: Json, uploadHeaders: Json)
    | Uploaded(taskId: Json)
    | Waiting(taskId: Json, final: bool)              // polling; `final` unless it is a stylize base task
    | Ready(taskId: Json, url: Json, final: bool)     // the task completed with an output URL
    | Delivered                                       // the output was downloaded
    | Halted                                          // a fatal answer was received

  /** A task-creation body requesting plain enhancement, as both workflows' first task does. */
  predicate RequestsEnhance(body: Json) {
    body.Obj? && "feature" in body.fields && body.fields["feature"] == Payload(Enhance)
  }

  /** The phase after a setup answer. */
  function AfterSetup(resp: Response): Phase {
    if MintsToken(resp) then Minted else Halted
  }

  /** The phase after a status answer while polling `taskId`. */
  function AfterStatus(taskId: Json, final: bool, resp: Response): Phase {
    match Judge(resp)
    case Continue => Waiting(taskId, final)
    case Finish(url) => if url.Some? then Ready(taskId, url.value, final) else Halted
    case Stop(_) => Halted
  }

  /**
   * The monitor's step for the workflow that applies `f`: the next phase
   * when exchange `e` is allowed in phase `s`, `None` when it is not.
   */
  function Next(f: Feature, s: Phase, e: Exchange): Option<Phase> {
    match s
    case Start =>
      if e.req.ProfileGet? then
        Some(if ProbeAccepted(e.resp) then Authed else if !IsSuccess(e.resp.code) then Refused else Halted)
      else if e.req.SetupGet? then Some(AfterSetup(e.resp))
      else None
    case Refused =>
      if e.req.SetupGet? then Some(AfterSetup(e.resp)) else None
    case Minted =>
      if e.req.ProfileGet? then Some(if ProbeAccepted(e.resp) then Authed else Halted) else None
    case Authed =>
      if e.req.TaskPost? && RequestsEnhance(e.req.body) then
        Some(if CreationAccepted(e.resp) && SuppliedUploadHeaders(e.resp).Obj?
             then Created(CreatedTaskId(e.resp), UploadUrl(e.resp), SuppliedUploadHeaders(e.resp))
             else Halted)
      else None
    case Created(taskId, url, supplied) =>
      if e.req.UploadPut? && e.req.url == url && supplied.Obj?
         && e.req.headers == UploadHeaders(supplied.fields, |e.req.content|)
      then Some(if IsSuccess(e.resp.code) then Uploaded(taskId) else Halted)
      else None
    case Uploaded(taskId) =>
      if e.req.ProcessPost? && e.req.taskId == taskId then
        Some(if IsSuccess(e.resp.code) then Waiting(taskId, f.Enhance?) else Halted)
      else None
    case Waiting(taskId, final) =>
      if e.req.StatusGet? && e.req.taskId == taskId then Some(AfterStatus(taskId, final, e.resp)) else None
    case Ready(taskId, url, final) =>
      if final then
        if e.req.DownloadGet? && e.req.url == url then
          Some(if IsSuccess(e.resp.code) then Delivered else Halted)
        else None
      else if f.Stylize? && e.req.ReprocessPost? && e.req.taskId == taskId
              && e.req.body == Obj(map["feature" := Payload(f)]) then
        Some(if ReprocessAccepted(e.resp)
             then Waiting(Field(e.resp.body.value.fields, "task_id"), true)
             else Halted)
      else None
    case Delivered => None
    case Halted => None
  }

  /** Runs the monitor over a log from phase `s`; `None` when some exchange is not allowed. */
  function Run(f: Feature, s: Phase, es: seq<Exchange>): Option<Phase>
    decreases |es|
  {
    if |es| == 0 then Some(s)
    else match Next(f, s, es[0])
      case None => None
      case Some(t) => Run(f, t, es[1..])
  }

  lemma RunOne(f: Feature, s: Phase, e: Exchange)
    ensures Run(f, s, [e]) == Next(f, s, e)
  {
    assert [e][1..] == [];
  }

  /** Running over two logs one after the other is running over their concatenation. */
  lemma {:induction false} RunAppend(f: Feature, s: Phase, a: seq<Exchange>, b: seq<Exchange>)
    ensures Run(f, s, a + b) == (match Run(f, s, a) case None => None case Some(t) => Run(f, t, b))
    decreases |a|
  {
    if |a| > 0 {
      assert (a + b)[0] == a[0];
      assert (a + b)[1..] == a[1..] + b;
      match Next(f, s, a[0])
      case None =>
      case Some(t) => RunAppend(f, t, a[1..], b);
    } else {
      assert a + b == b;
    }
  }

  /** The kinds of request, for counting. */
  datatype Kind = ProbeKind | SetupKind | CreateKind | UploadKind | PingKind | StatusKind | ReprocessKind | DownloadKind

  function KindOf(req: Request): Kind {
    match req
    case ProfileGet(_) => ProbeKind
    case SetupGet(_) => SetupKind
    case TaskPost(_, _) => CreateKind
    case UploadPut(_, _, _) => UploadKind
    case ProcessPost(_, _) => PingKind
    case StatusGet(_, _) => StatusKind
    case ReprocessPost(_, _, _) => ReprocessKind
    case DownloadGet(_, _) => DownloadKind
  }

  /** How many exchanges of a log are of kind `k`. */
  function Count(k: Kind, es: seq<Exchange>): nat {
    if |es| == 0 then 0 else (if KindOf(es[0].req) == k then 1 else 0) + Count(k, es[1..])
  }

  /** Position of a phase along the workflow. */
  function Stage(s: Phase): nat {
    match s
    case Start => 0
    case Refused => 1
    case Minted => 2
    case Authed => 3
    case Created(_, _, _) => 4
    case Uploaded(_) => 5
    case Waiting(_, final) => if final then 8 else 6
    case Ready(_, _, final) => if final then 9 else 7
    case Delivered => 10
    case Halted => 11
  }

  /**
   * How many more requests of kind `k` the protocol allows from phase `s`:
   * two probes and one setup at most for login, and each later step once.
   */
  function Budget(k: Kind, s: Phase): nat
    requires k != StatusKind
  {
    var st := Stage(s);
    if st > 9 then 0
    else match k
      case ProbeKind => if st == 0 then 2 else if st <= 2 then 1 else 0
      case SetupKind => if st <= 1 then 1 else 0
      case CreateKind => if st <= 3 then 1 else 0
      case UploadKind => if st <= 4 then 1 else 0
      case PingKind => if st <= 5 then 1 else 0
      case ReprocessKind => if st <= 7 then 1 else 0
      case DownloadKind => 1
  }

  /** Each allowed step spends at most one unit of the budget of its own kind and none of any other. */
  lemma NextSpendsBudget(f: Feature, s: Phase, e: Exchange, k: Kind)
    requires k != StatusKind
    requires Next(f, s, e).Some?
    ensures Budget(k, Next(f, s, e).value) + (if KindOf(e.req) == k then 1 else 0) <= Budget(k, s)
  {
    if Stage(s) <= 3 {
      LoginSpendsBudget(f, s, e, k);
    } else if Stage(s) <= 5 {
      TaskSpendsBudget(f, s, e, k);
    } else {
      PollSpendsBudget(f, s, e, k);
    }
  }

  /** `NextSpendsBudget` for the login phases. */
  lemma LoginSpendsBudget(f: Feature, s: Phase, e: Exchange, k: Kind)
    requires k != StatusKind
    requires Next(f, s, e).Some? && Stage(s) <= 3
    ensures Budget(k, Next(f, s, e).value) + (if KindOf(e.req) == k then 1 else 0) <= Budget(k, s)
  {
    match s
    case Start =>
    case Refused =>
    case Minted =>
    case Authed =>
  }

  /** `NextSpendsBudget` for the phases between creation and the ping. */
  lemma TaskSpendsBudget(f: Feature, s: Phase, e: Exchange, k: Kind)
    requires k != StatusKind
    requires Next(f, s, e).Some? && 3 < Stage(s) <= 5
    ensures Budget(k, Next(f, s, e).value) + (if KindOf(e.req) == k then 1 else 0) <= Budget(k, s)
  {
    match s
    case Created(_, _, _) =>
    case Uploaded(_) =>
  }

  /** `NextSpendsBudget` for the polling and delivery phases. */
  lemma PollSpendsBudget(f: Feature, s: Phase, e: Exchange, k: Kind)
    requires k != StatusKind
    requires Next(f, s, e).Some? && Stage(s) > 5
    ensures Budget(k, Next(f, s, e).value) + (if KindOf(e.req) == k then 1 else 0) <= Budget(k, s)
  {
    match s
    case Waiting(_, _) =>
    case Ready(_, _, final) =>
      if final {
      } else {
      }
  }

  /** No log the monitor accepts sends more requests of a kind than its budget allows. */
  lemma {:induction false} CountWithinBudget(f: Feature, s: Phase, es: seq<Exchange>, k: Kind)
    requires k != StatusKind
    requires Run(f, s, es).Some?
    ensures Count(k, es) <= Budget(k, s)
    decreases |es|
  {
    if |es| > 0 {
      var t := Next(f, s, es[0]).value;
      NextSpendsBudget(f, s, es[0], k);
      CountWithinBudget(f, t, es[1..], k);
    }
  }

  /**
   * From the start, an accepted log holds at most two probes, at most one
   * setup, and at most one creation, upload, ping, reprocess and download:
   * re-authentication is bounded and the upload target is used once.
   */
  lemma AtMostOnceEach(f: Feature, es: seq<Exchange>)
    requires Run(f, Start, es).Some?
    ensures Count(ProbeKind, es) <= 2 && Count(SetupKind, es) <= 1
    ensures Count(CreateKind, es) <= 1 && Count(UploadKind, es) <= 1 && Count(PingKind, es) <= 1
    ensures Count(ReprocessKind, es) <= 1 && Count(DownloadKind, es) <= 1
  {
    CountWithinBudget(f, Start, es, ProbeKind);
    CountWithinBudget(f, Start, es, SetupKind);
    CountWithinBudget(f, Start, es, CreateKind);
    CountWithinBudget(f, Start, es, UploadKind);
    CountWithinBudget(f, Start, es, PingKind);
    CountWithinBudget(f, Start, es, ReprocessKind);
    CountWithinBudget(f, Start, es, DownloadKind);
  }

  /** Nothing is accepted after the monitor halts: a fatal answer is never followed by another request. */
  lemma HaltedIsFinal(f: Feature, es: seq<Exchange>)
    requires Run(f, Halted, es).Some?
    ensures es == []
  {
  }

  /** The plain-enhance workflow never reprocesses, from any phase: only a style monitor accepts a reprocess. */
  lemma {:induction false} EnhanceNeverReprocesses(s: Phase, es: seq<Exchange>)
    requires Run(Enhance, s, es).Some?
    ensures Count(ReprocessKind, es) == 0
    decreases |es|
  {
    if |es| > 0 {
      var t := Next(Enhance, s, es[0]).value;
      EnhanceNeverReprocesses(t, es[1..]);
    }
  }
}

=== FILE: service.dfy ===
/**
 * The client's view of the remote service: requests it sends, the scripted
 * responses it gets back in order, the errors it can raise, and the world
 * state (session token, token file, written files) its operations thread.
 */
module Service {
  import opened Wrappers
  import opened Values
  import opened Headers
  import opened TokenStore

  newtype byte = b: int | 0 <= b < 256

  /**
   * One HTTP response: its status code, the result of `response.json()`
   * (`None` when the body is not JSON) and the chunks a streamed read yields.
   */
  datatype Response = Response(code: int, body: Option<Json>, chunks: seq<seq<byte>>)

  /** httpx's `raise_for_status` raises for every code outside 2xx. */
  predicate IsSuccess(code: int) {
    200 <= code < 300
  }

  /** The requests the client sends, with the parts of each that the model tracks. */
  datatype Request =
    | ProfileGet(headers: HeaderMap)
    | SetupGet(headers: HeaderMap)
    | TaskPost(headers: HeaderMap, body: Json)
    | UploadPut(url: Json, headers: HeaderMap, content: seq<byte>)
    | ProcessPost(taskId: Json, headers: HeaderMap)
    | StatusGet(taskId: Json, headers: HeaderMap)
    | ReprocessPost(taskId: Json, headers: HeaderMap, body: Json)
    | DownloadGet(url: Json, headers: HeaderMap)

  /** A request together with the response the service gave it. */
  datatype Exchange = Exchange(req: Request, resp: Response)

  /** Exceptions other than ReminiError that escape the client. */
  datatype Fault =
    | BadJson       // `response.json()` on a body that is not JSON
    | NotADict      // `.get`, `.copy` or item assignment on a value that is not a dict
    | BadEncoding   // UnicodeDecodeError: the token file's bytes are not valid text
    | StreamNotRead // httpx's ResponseNotRead: `.text` of a streamed response whose body was never read

  /**
   * Everything an operation can raise. All but the last three are
   * ReminiError with the message the client builds; `Exhausted` means the
   * scripted service ran out of responses before the operation ended.
   */
  datatype Error =
    | SetupHttp(code: int)
    | TokenNotFound(data: Json)
    | ProfileNotActivated
    | TaskRequestHttp(code: int)
    | MissingTaskFields(data: Json)
    | UploadHttp(code: int)
    | ReprocessHttp(code: int)
    | NoReprocessTaskId(data: Json)
    | PingHttp(code: int)
    | PollHttp(code: int)
    | TaskFailed(errors: Json)
    | DownloadHttp(code: int)
    | BaseTaskIncomplete
    | NoFinalUrl
    | FileNotFound
    | Crash(fault: Fault)
    | Exhausted

  /**
   * The state a client operation reads and changes: the device ids, the
   * in-memory token, the token file, the responses the service has yet to
   * give, the exchanges so far and the files downloads have written.
   */
  datatype World = World(
    ids: DeviceIds,
    token: Json,
    tokenFile: TokenFile,
    script: seq<Response>,
    log: seq<Exchange>,
    files: map<string, seq<byte>>)

  /** What an operation yields: its result and the world after it. */
  datatype Step<+T> = Step(result: Result<T, Error>, world: World)

  /** Sends `req` and takes the next scripted response; the caller checks that one is left. */
  function Send(w: World, req: Request): World
    requires |w.script| > 0
  {
    w.(script := w.script[1..], log := w.log + [Exchange(req, w.script[0])])
  }

  /** The responses of a run of exchanges, in order. */
  function Replies(es: seq<Exchange>): (rs: seq<Response>)
    ensures |rs| == |es|
    ensures forall i :: 0 <= i < |es| ==> rs[i] == es[i].resp
  {
    if |es| == 0 then [] else Replies(es[..|es| - 1]) + [es[|es| - 1].resp]
  }

  /**
   * `w2` follows `w`: same device ids, the log only grew, and each new
   * exchange answered with the next response of `w`'s script, in order.
   */
  ghost predicate Extends(w: World, w2: World) {
    && w2.ids == w.ids
    && |w.log| <= |w2.log|
    && w2.log[..|w.log|] == w.log
    && w.script == Replies(w2.log[|w.log|..]) + w2.script
  }

  /** The exchanges `w2` has beyond `w`. */
  function Added(w: World, w2: World): seq<Exchange>
    requires |w.log| <= |w2.log|
  {
    w2.log[|w.log|..]
  }

  lemma ExtendsRefl(w: World)
    ensures Extends(w, w) && Added(w, w) == []
  {
    assert w.log[..|w.log|] == w.log;
  }

  /** Each added exchange consumed one scripted response: an empty script admits none. */
  lemma Consumes(w: World, w2: World)
    requires Extends(w, w2)
    ensures |w.script| == |Added(w, w2)| + |w2.script|
    ensures |w.script| == 0 ==> Added(w, w2) == []
  {
    assert |Replies(Added(w, w2))| == |Added(w, w2)|;
  }

  /** Sending one request extends the world by exactly that exchange. */
  lemma SendExtends(w: World, req: Request)
    requires |w.script| > 0
    ensures Extends(w, Send(w, req))
    ensures Added(w, Send(w, req)) == [Exchange(req, w.script[0])]
  {
    var w2 := Send(w, req);
    assert w2.log[..|w.log|] == w.log;
    assert Added(w, w2) == [Exchange(req, w.script[0])];
    assert w.script == [w.script[0]] + w.script[1..];
  }

  /** Following is transitive, and the added exchanges concatenate. */
  lemma ExtendsTrans(w1: World, w2: World, w3: World)
    requires Extends(w1, w2) && Extends(w2, w3)
    ensures Extends(w1, w3)
    ensures Added(w1, w3) == Added(w1, w2) + Added(w2, w3)
  {
    var a := Added(w1, w2);
    var b := Added(w2, w3);
    PrefixTrans(w1.log, w2.log, w3.log);
    RepliesAppend(a, b);
    calc {
      w1.script;
      Replies(a) + w2.script;
      Replies(a) + (Replies(b) + w3.script);
      (Replies(a) + Replies(b)) + w3.script;
      Replies(a + b) + w3.script;
    }
  }

  lemma PrefixTrans<T>(l1: seq<T>, l2: seq<T>, l3: seq<T>)
    requires |l1| <= |l2| <= |l3|
    requires l2[..|l1|] == l1 && l3[..|l2|] == l2
    ensures l3[..|l1|] == l1
    ensures l3[|l1|..] == l2[|l1|..] + l3[|l2|..]
  {
    assert l3[..|l1|] == l3[..|l2|][..|l1|];
  }

  lemma {:induction false} RepliesAppend(a: seq<Exchange>, b: seq<Exchange>)
    ensures Replies(a + b) == Replies(a) + Replies(b)
  {
    assert |Replies(a + b)| == |Replies(a) + Replies(b)|;
    forall i | 0 <= i < |a + b|
      ensures Replies(a + b)[i] == (Replies(a) + Replies(b))[i]
    {
    }
  }
}

=== FILE: session.dfy ===
/**
 * Session management: the profile probe, the setup handshake that mints a
 * token, and login, which combines them with the token file.
 */
module Session {
  import opened Wrappers
  import opened Values
  import opened Headers
  import opened TokenStore
  import opened Service

  /** A probe response that activates the profile: 2xx with a JSON object body. */
  predicate ProbeAccepted(resp: Response) {
    IsSuccess(resp.code) && resp.body.Some? && resp.body.value.Obj?
  }

  /** The profile probe request for a given token. */
  function ProbeRequest(ids: DeviceIds, token: Json): Request {
    ProfileGet(ClientHeaders(ids, token, None))
  }

  /**
   * The profile probe. With a falsy token it answers false without a
   * request; otherwise one request, true on an accepted response, false on
   * a non-2xx one. A 2xx body that is not a JSON object escapes as a fault.
   */
  function Profile(w: World): (r: Step<bool>)
    ensures Extends(w, r.world)
    ensures r.world == w.(script := r.world.script, log := r.world.log)
    ensures !Truthy(w.token) ==> r == Step(Ok(false), w)
    ensures Truthy(w.token) && |w.script| > 0 ==>
      Added(w, r.world) == [Exchange(ProbeRequest(w.ids, w.token), w.script[0])]
    ensures |Added(w, r.world)| <= 1
    ensures r.result == Ok(true) <==> Truthy(w.token) && |w.script| > 0 && ProbeAccepted(w.script[0])
    ensures r.result == Ok(false) <==> !Truthy(w.token) || (|w.script| > 0 && !IsSuccess(w.script[0].code))
  {
    if !Truthy(w.token) then Step(Ok(false), w)
    else if |w.script| == 0 then Step(Err(Exhausted), w)
    else
      var resp := w.script[0];
      var w1 := Send(w, ProbeRequest(w.ids, w.token));
      SendExtends(w, ProbeRequest(w.ids, w.token));
      if !IsSuccess(resp.code) then Step(Ok(false), w1)
      else if resp.body.None? then Step(Err(Crash(BadJson)), w1)
      else if !resp.body.value.Obj? then Step(Err(Crash(NotADict)), w1)
      else Step(Ok(true), w1)
  }

  /** `data["settings"]["__identity__"]["token"]` exists, through two dicts, and is `t`. */
  predicate TokenAt(data: Json, t: Json) {
    && data.Obj? && "settings" in data.fields
    && var settings := data.fields["settings"];
    && settings.Obj? && "__identity__" in settings.fields
    && var identity := settings.fields["__identity__"];
    && identity.Obj? && "token" in identity.fields
    && identity.fields["token"] == t
  }

  /** One of the receivers of the chained `get` is present but not a dict. */
  predicate SetupPathBroken(data: Json) {
    || !data.Obj?
    || ("settings" in data.fields && !data.fields["settings"].Obj?)
    || ("settings" in data.fields && "__identity__" in data.fields["settings"].fields
        && !data.fields["settings"].fields["__identity__"].Obj?)
  }

  /**
   * `data.get("settings", {}).get("__identity__", {}).get("token")`;
   * `None` when one of the receivers is not a dict.
   */
  function SetupToken(data: Json): (r: Option<Json>)
    ensures r.None? <==> SetupPathBroken(data)
    ensures forall t {:trigger TokenAt(data, t)} :: TokenAt(data, t) ==> r == Some(t)
    ensures r.Some? && r.value != Null ==> TokenAt(data, r.value)
  {
    match Get(data, "settings", Obj(map[]))
    case None => None
    case Some(settings) =>
      match Get(settings, "__identity__", Obj(map[]))
      case None => None
      case Some(identity) => Get(identity, "token", Null)
  }

  /** A setup response that mints a token: 2xx, JSON, and a truthy nested token. */
  predicate MintsToken(resp: Response) {
    && IsSuccess(resp.code)
    && resp.body.Some?
    && SetupToken(resp.body.value).Some?
    && Truthy(SetupToken(resp.body.value).value)
  }

  function MintedToken(resp: Response): Json
    requires MintsToken(resp)
  {
    SetupToken(resp.body.value).value
  }

  /** The setup request of a client holding `token`, stale or not. */
  function SetupRequest(ids: DeviceIds, token: Json, now: string): Request {
    SetupGet(SetupHeaders(ids, token, now))
  }

  /**
   * The bootstrap handshake: one setup request; on a minted token the
   * client adopts it and saves it, otherwise nothing but the log changes.
   */
  function Setup(w: World, now: string): (r: Step<()>)
    ensures Extends(w, r.world) && r.world.files == w.files
    ensures |w.script| > 0 ==> Added(w, r.world) == [Exchange(SetupRequest(w.ids, w.token, now), w.script[0])]
    ensures |w.script| > 0 ==> r.world.script == w.script[1..]
    ensures |w.script| == 0 ==> Added(w, r.world) == []
    ensures r.result.Ok? <==> |w.script| > 0 && MintsToken(w.script[0])
    ensures r.result.Ok? ==> r.world.token == MintedToken(w.script[0]) && Truthy(r.world.token)
    ensures r.result.Ok? ==> r.world.tokenFile == Stored(TokenDocument(r.world.token))
    ensures r.result.Err? ==> r.world.token == w.token && r.world.tokenFile == w.tokenFile
    ensures |w.script| > 0 && !IsSuccess(w.script[0].code) ==> r.result == Err(SetupHttp(w.script[0].code))
  {
    if |w.script| == 0 then Step(Err(Exhausted), w)
    else
      var resp := w.script[0];
      var w1 := Send(w, SetupRequest(w.ids, w.token, now));
      SendExtends(w, SetupRequest(w.ids, w.token, now));
      if !IsSuccess(resp.code) then Step(Err(SetupHttp(resp.code)), w1)
      else if resp.body.None? then Step(Err(Crash(BadJson)), w1)
      else
        match SetupToken(resp.body.value)
        case None => Step(Err(Crash(NotADict)), w1)
        case Some(token) =>
          if !Truthy(token) then Step(Err(TokenNotFound(resp.body.value)), w1)
          else Step(Ok(()), w1.(token := token, tokenFile := Save(w1.tokenFile, token)))
  }

  /** The request sequence of a bootstrap: at most a setup followed by one probe. */
  predicate BootstrapShape(es: seq<Exchange>) {
    && |es| <= 2
    && (|es| >= 1 ==> es[0].req.SetupGet?)
    && (|es| == 2 ==> es[1].req.ProfileGet?)
  }

  /** The request sequence of a login: a bootstrap, possibly after one probe of the cached token. */
  predicate LoginShape(es: seq<Exchange>) {
    || BootstrapShape(es)
    || (|es| >= 1 && es[0].req.ProfileGet? && BootstrapShape(es[1..]))
  }

  /** Whether a login ending in `r` left the client holding a token the service accepted. */
  predicate EndsAuthenticated(w: World, r: Step<()>)
    requires |w.log| <= |r.world.log|
  {
    var es := Added(w, r.world);
    && Truthy(r.world.token)
    && |es| > 0
    && es[|es| - 1].req == ProbeRequest(w.ids, r.world.token)
    && ProbeAccepted(es[|es| - 1].resp)
  }

  /** Bootstrap after a missing or rejected token: setup, then exactly one more probe. */
  function Bootstrap(w: World, now: string): (r: Step<()>)
    ensures Extends(w, r.world) && r.world.files == w.files
    ensures BootstrapShape(Added(w, r.world))
    ensures |w.script| > 0 ==>
      |Added(w, r.world)| >= 1 && Added(w, r.world)[0] == Exchange(SetupRequest(w.ids, w.token, now), w.script[0])
    ensures |Added(w, r.world)| == 2 ==>
      (MintsToken(w.script[0]) && Added(w, r.world)[1].req == ProbeRequest(w.ids, MintedToken(w.script[0])))
    ensures r.result.Ok? <==> |w.script| > 1 && MintsToken(w.script[0]) && ProbeAccepted(w.script[1])
    ensures |w.script| > 1 && MintsToken(w.script[0]) && !IsSuccess(w.script[1].code) ==>
      r.result == Err(ProfileNotActivated)
    ensures r.result.Ok? ==>
      (r.world.token == MintedToken(w.script[0]) && r.world.tokenFile == Stored(TokenDocument(r.world.token)))
    ensures r.result.Ok? ==> EndsAuthenticated(w, r)
  {
    var s := Setup(w, now);
    if s.result.Err? then Step(Err(s.result.error), s.world)
    else
      var c := Confirm(s.world);
      ExtendsTrans(w, s.world, c.world);
      assert s.world.script == w.script[1..];
      c
  }

  /** The probe that follows a minted token: a rejection fails the bootstrap. */
  function Confirm(w: World): (r: Step<()>)
    requires Truthy(w.token)
    ensures Extends(w, r.world)
    ensures r.world == w.(script := r.world.script, log := r.world.log)
    ensures |w.script| > 0 ==> Added(w, r.world) == [Exchange(ProbeRequest(w.ids, w.token), w.script[0])]
    ensures |w.script| == 0 ==> Added(w, r.world) == []
    ensures r.result.Ok? <==> |w.script| > 0 && ProbeAccepted(w.script[0])
    ensures |w.script| > 0 && !IsSuccess(w.script[0].code) ==> r.result == Err(ProfileNotActivated)
  {
    var p := Profile(w);
    match p.result
    case Err(e) => Step(Err(e), p.world)
    case Ok(activated) =>
      if activated then Step(Ok(()), p.world) else Step(Err(ProfileNotActivated), p.world)
  }

  /**
   * Login once the cache has been loaded into `w`: a truthy token is probed
   * first, and only a missing or rejected one leads to a bootstrap.
   */
  function Authenticate(w: World, now: string): (r: Step<()>)
    ensures Extends(w, r.world) && r.world.files == w.files
    ensures LoginShape(Added(w, r.world))
    ensures r.result.Ok? ==> EndsAuthenticated(w, r)
    ensures !Truthy(w.token) && |w.script| > 0 ==>
      |Added(w, r.world)| >= 1 && Added(w, r.world)[0].req == SetupRequest(w.ids, w.token, now)
    ensures Truthy(w.token) && |w.script| > 0 ==>
      |Added(w, r.world)| >= 1 && Added(w, r.world)[0].req == ProbeRequest(w.ids, w.token)
    ensures Truthy(w.token) && |w.script| > 0 && ProbeAccepted(w.script[0]) ==>
      r.result.Ok? && |Added(w, r.world)| == 1
    ensures Truthy(w.token) && |w.script| > 1 && !IsSuccess(w.script[0].code) ==>
      |Added(w, r.world)| >= 2 && Added(w, r.world)[1].req == SetupRequest(w.ids, w.token, now)
  {
    if Truthy(w.token) then Reprobe(w, now)
    else
      var b := Bootstrap(w, now);
      ExtendsRefl(w);
      BootstrapAfterProbe(w, w, b);
      b
  }

  /**
   * A truthy cached token is probed; exactly a rejection falls back to a
   * bootstrap, whose setup request still carries the rejected token.
   */
  function Reprobe(w: World, now: string): (r: Step<()>)
    requires Truthy(w.token)
    ensures Extends(w, r.world) && r.world.files == w.files
    ensures LoginShape(Added(w, r.world))
    ensures r.result.Ok? ==> EndsAuthenticated(w, r)
    ensures |w.script| > 0 ==>
      |Added(w, r.world)| >= 1 && Added(w, r.world)[0].req == ProbeRequest(w.ids, w.token)
    ensures |w.script| > 0 && ProbeAccepted(w.script[0]) ==> r.result.Ok? && |Added(w, r.world)| == 1
    ensures |w.script| > 1 && !IsSuccess(w.script[0].code) ==>
      |Added(w, r.world)| >= 2 && Added(w, r.world)[1].req == SetupRequest(w.ids, w.token, now)
  {
    var p := Profile(w);
    ProbeOnly(Added(w, p.world));
    match p.result
    case Err(e) => Step(Err(e), p.world)
    case Ok(activated) =>
      if activated then Step(Ok(()), p.world)
      else
        Consumes(w, p.world);
        Fallback(w, p.world, now)
  }

  /**
   * The bootstrap that follows a rejected probe of the cached token, in a
   * world `w1` that differs from `w` by that one probe. Its setup request
   * carries the same token.
   */
  function Fallback(w: World, w1: World, now: string): (r: Step<()>)
    requires Extends(w, w1) && w1 == w.(script := w1.script, log := w1.log)
    requires |Added(w, w1)| == 1 && Added(w, w1)[0].req.ProfileGet?
    ensures Extends(w, r.world) && r.world.files == w.files
    ensures LoginShape(Added(w, r.world))
    ensures r.result.Ok? ==> EndsAuthenticated(w, r)
    ensures |w1.script| > 0 ==>
      |Added(w, r.world)| >= 2 && Added(w, r.world)[1].req == SetupRequest(w.ids, w.token, now)
  {
    var b := Bootstrap(w1, now);
    BootstrapAfterProbe(w, w1, b);
    ExtendsTrans(w, w1, b.world);
    b
  }

  /** At most one probe is a login shape. */
  lemma ProbeOnly(es: seq<Exchange>)
    requires |es| <= 1 && (|es| == 1 ==> es[0].req.ProfileGet?)
    ensures LoginShape(es)
  {
    if |es| == 1 {
      assert es[1..] == [];
    }
  }

  /** A bootstrap following an unanswered-or-rejected probe keeps the login shape. */
  lemma BootstrapAfterProbe(w: World, w1: World, b: Step<()>)
    requires Extends(w, w1) && Extends(w1, b.world)
    requires Added(w, w1) == [] || (|Added(w, w1)| == 1 && Added(w, w1)[0].req.ProfileGet?)
    requires BootstrapShape(Added(w1, b.world))
    requires b.result.Ok? ==> EndsAuthenticated(w1, b)
    ensures Extends(w, b.world)
    ensures LoginShape(Added(w, b.world))
    ensures b.result.Ok? ==> EndsAuthenticated(w, b)
  {
    ExtendsTrans(w, w1, b.world);
    var a := Added(w, w1);
    var c := Added(w1, b.world);
    if a != [] {
      assert Added(w, b.world)[1..] == c;
    }
  }

  /** The token the client holds once the cache has been loaded, or the fault loading raised. */
  function LoadedToken(w: World): Result<Json, LoadFault> {
    Load(w.tokenFile, w.token)
  }

  /** The exception a failed load escapes with. */
  function LoadCrash(f: LoadFault): Error {
    match f
    case NotAnObject => Crash(NotADict)
    case BadText => Crash(BadEncoding)
  }

  /**
   * Login: load the cached token; if it is truthy and the probe accepts it,
   * stop after that single request; otherwise bootstrap, probing once more.
   */
  function Login(w: World, now: string): (r: Step<()>)
    ensures Extends(w, r.world) && r.world.files == w.files
    ensures LoginShape(Added(w, r.world))
    ensures r.result.Ok? ==> EndsAuthenticated(w, r)
    ensures LoadedToken(w).Err? ==> r == Step(Err(LoadCrash(LoadedToken(w).error)), w)
  {
    match LoadedToken(w)
    case Err(f) =>
      ExtendsRefl(w);
      Step(Err(LoadCrash(f)), w)
    case Ok(token) =>
      var w0 := w.(token := token);
      var r := Authenticate(w0, now);
      assert w0.log == w.log && w0.script == w.script;
      r
  }

  /**
   * A cached token that loads truthy and is accepted by the probe ends the
   * login after exactly that one request, without a setup.
   */
  lemma LoginHappyPath(w: World, now: string)
    requires LoadedToken(w).Ok? && Truthy(LoadedToken(w).value)
    requires |w.script| > 0 && ProbeAccepted(w.script[0])
    ensures var r := Login(w, now);
      && r.result.Ok?
      && r.world.token == LoadedToken(w).value
      && r.world.tokenFile == w.tokenFile
      && Added(w, r.world) == [Exchange(ProbeRequest(w.ids, LoadedToken(w).value), w.script[0])]
  {
  }

  /**
   * A cached token the probe rejects is replaced: the setup mints a new
   * one, which is saved, and the second probe accepts it; the login sends
   * exactly these three requests.
   */
  lemma LoginRecoversFromRejectedToken(w: World, now: string)
    requires LoadedToken(w).Ok? && Truthy(LoadedToken(w).value)
    requires |w.script| > 2 && !IsSuccess(w.script[0].code)
    requires MintsToken(w.script[1]) && ProbeAccepted(w.script[2])
    ensures var r := Login(w, now);
      && r.result.Ok?
      && r.world.token == MintedToken(w.script[1])
      && r.world.tokenFile == Stored(TokenDocument(r.world.token))
      && |Added(w, r.world)| == 3
  {
    var w0 := w.(token := LoadedToken(w).value);
    var p := Profile(w0);
    assert p.result == Ok(false);
    var b := Bootstrap(p.world, now);
    assert p.world.script == w.script[1..];
    ExtendsTrans(w0, p.world, b.world);
  }

  /**
   * Without a truthy cached token (none on disk, or a falsy one) login
   * starts with the setup request; no probe is sent first.
   */
  lemma LoginBootstrapsWithoutToken(w: World, now: string)
    requires LoadedToken(w).Ok? && !Truthy(LoadedToken(w).value) && |w.script| > 0
    ensures var r := Login(w, now);
      |Added(w, r.world)| >= 1 && Added(w, r.world)[0].req == SetupRequest(w.ids, LoadedToken(w).value, now)
  {
    var w0 := w.(token := LoadedToken(w).value);
    assert w0.log == w.log && w0.script == w.script;
  }

  /**
   * The first run, with no usable cached token: the login is exactly a
   * bootstrap. It succeeds iff setup mints a token and the probe of that
   * token is accepted, and then holds and saves the minted token; a setup
   * that mints nothing fails after one request, and a rejected probe of
   * the minted token fails with `ProfileNotActivated` after two.
   */
  lemma LoginFirstRun(w: World, now: string)
    requires LoadedToken(w).Ok? && !Truthy(LoadedToken(w).value)
    ensures var r := Login(w, now);
      && (r.result.Ok? <==> |w.script| > 1 && MintsToken(w.script[0]) && ProbeAccepted(w.script[1]))
      && (r.result.Ok? ==>
            && r.world.token == MintedToken(w.script[0])
            && r.world.tokenFile == Stored(TokenDocument(r.world.token)))
      && (|w.script| > 0 && !MintsToken(w.script[0]) ==> r.result.Err? && |Added(w, r.world)| == 1)
      && (|w.script| > 1 && MintsToken(w.script[0]) ==>
            && |Added(w, r.world)| == 2
            && Added(w, r.world)[1].req == ProbeRequest(w.ids, MintedToken(w.script[0]))
            && (!IsSuccess(w.script[1].code) ==> r.result == Err(ProfileNotActivated)))
  {
  }

  /**
   * A truthy cached token the probe rejects is followed by the setup
   * request, which still carries the rejected token.
   */
  lemma LoginBootstrapsAfterRejection(w: World, now: string)
    requires LoadedToken(w).Ok? && Truthy(LoadedToken(w).value)
    requires |w.script| > 1 && !IsSuccess(w.script[0].code)
    ensures var r := Login(w, now);
      && |Added(w, r.world)| >= 2
      && Added(w, r.world)[0].req == ProbeRequest(w.ids, LoadedToken(w).value)
      && Added(w, r.world)[1].req == SetupRequest(w.ids, LoadedToken(w).value, now)
  {
    var w0 := w.(token := LoadedToken(w).value);
    assert w0.log == w.log && w0.script == w.script;
  }

  /**
   * A rejected cached token, a minting setup and a re-probe that is also
   * rejected: login fails as not activated after exactly three requests.
   */
  lemma LoginFailsOnRejectedReprobe(w: World, now: string)
    requires LoadedToken(w).Ok? && Truthy(LoadedToken(w).value)
    requires |w.script| > 2 && !IsSuccess(w.script[0].code)
    requires MintsToken(w.script[1]) && !IsSuccess(w.script[2].code)
    ensures var r := Login(w, now);
      && r.result == Err(ProfileNotActivated)
      && |Added(w, r.world)| == 3
  {
    var w0 := w.(token := LoadedToken(w).value);
    var p := Profile(w0);
    assert p.result == Ok(false);
    var b := Bootstrap(p.world, now);
    assert p.world.script == w.script[1..];
    ExtendsTrans(w0, p.world, b.world);
  }
}

=== FILE: tasks.dfy ===
/**
 * Task submission: the feature payloads, task creation with its response
 * validation, the object-storage upload, the processing ping and the
 * reprocess request.
 */
module Tasks {
  import opened Wrappers
  import opened Values
  import opened Headers
  import opened Service

  /** The transform a task applies: plain enhancement or a named style pipeline. */
  datatype Feature = Enhance | Stylize(style: string)

  /** The `feature` payload the client serialises for a transform. */
  function Payload(f: Feature): (r: Json)
    ensures r.Obj? && "type" in r.fields
    ensures r.fields["type"] == Str("enhance") <==> f.Enhance?
    ensures f.Stylize? ==> "pipelines" in r.fields && r.fields["pipelines"] == Arr([Obj(map["id" := Str(f.style)])])
  {
    match f
    case Enhance => Obj(map["type" := Str("enhance"), "models" := Arr([])])
    case Stylize(style) =>
      Obj(map["type" := Str("stylization-v2"), "pipelines" := Arr([Obj(map["id" := Str(style)])])])
  }

  /** Reads a payload back into the transform it requests, if it is one the client builds. */
  function FeatureOf(payload: Json): (r: Option<Feature>)
    ensures r.Some? ==> Payload(r.value) == payload
  {
    if payload == Payload(Enhance) then Some(Enhance)
    else if payload.Obj? && payload.fields.Keys == {"type", "pipelines"}
      && payload.fields["type"] == Str("stylization-v2")
      && payload.fields["pipelines"].Arr? && |payload.fields["pipelines"].items| == 1
      && payload.fields["pipelines"].items[0].Obj?
      && payload.fields["pipelines"].items[0].fields.Keys == {"id"}
      && payload.fields["pipelines"].items[0].fields["id"].Str?
    then
      var style := payload.fields["pipelines"].items[0].fields["id"].s;
      assert payload.fields["pipelines"].items[0] == Obj(map["id" := Str(style)]);
      assert payload.fields["pipelines"] == Arr([Obj(map["id" := Str(style)])]);
      assert payload.fields == map["type" := Str("stylization-v2"), "pipelines" := Arr([Obj(map["id" := Str(style)])])];
      Some(Stylize(style))
    else None
  }

  /** Every payload reads back as the transform it was built from, so distinct transforms never share one. */
  lemma FeatureRoundTrip(f: Feature)
    ensures FeatureOf(Payload(f)) == Some(f)
  {
    match f
    case Enhance =>
    case Stylize(style) =>
      var p := Payload(f);
      assert p != Payload(Enhance) by {
        assert "pipelines" in p.fields && "pipelines" !in Payload(Enhance).fields;
      }
      assert p.fields.Keys == {"type", "pipelines"};
      assert p.fields["pipelines"].items[0].fields.Keys == {"id"};
  }

  /**
   * The local image as the client sees it. Its MIME guess, base64 MD5 and
   * Pillow dimensions come from library calls and are given here.
   */
  datatype ImageFile = ImageFile(
    present: bool,
    content: seq<byte>,
    mimeGuess: Option<string>,
    md5: string,
    dims: Option<(nat, nat)>)

  /** `mimetypes.guess_type(path)[0] or "image/jpeg"`. */
  function MimeType(guess: Option<string>): (m: string)
    ensures |m| > 0
    ensures guess.Some? && |guess.value| > 0 ==> m == guess.value
    ensures guess.None? || |guess.value| == 0 ==> m == "image/jpeg"
  {
    if guess.Some? && |guess.value| > 0 then guess.value else "image/jpeg"
  }

  /** The metadata object: the file size, and width and height when Pillow could read them. */
  function Metadata(img: ImageFile): (r: Json)
    ensures r.Obj? && "size" in r.fields && r.fields["size"] == Num(|img.content|)
    ensures img.dims.None? ==> r.fields.Keys == {"size"}
    ensures img.dims.Some? ==>
      && r.fields.Keys == {"size", "width", "height"}
      && r.fields["width"] == Num(img.dims.value.0) && r.fields["height"] == Num(img.dims.value.1)
  {
    var size := map["size" := Num(|img.content|)];
    match img.dims
    case None => Obj(size)
    case Some((width, height)) => Obj(size["width" := Num(width)]["height" := Num(height)])
  }

  /** The JSON body of the task-creation request. */
  function TaskBody(img: ImageFile, feature: Json): (r: Json)
    ensures r.Obj? && r.fields.Keys == {"image_content_type", "image_md5", "feature", "metadata", "options"}
    ensures r.fields["feature"] == feature && r.fields["metadata"] == Metadata(img)
    ensures r.fields["image_content_type"] == Str(MimeType(img.mimeGuess)) && r.fields["image_md5"] == Str(img.md5)
  {
    Obj(map[
      "image_content_type" := Str(MimeType(img.mimeGuess)),
      "image_md5" := Str(img.md5),
      "feature" := feature,
      "metadata" := Metadata(img),
      "options" := Obj(map["high_quality_output" := Bool(false), "save_input" := Bool(true)])
    ])
  }

  function CreateRequest(w: World, img: ImageFile, feature: Json): Request {
    TaskPost(ClientHeaders(w.ids, w.token, Some(JsonContentType)), TaskBody(img, feature))
  }

  /** A creation response the client accepts: 2xx, a JSON object, and truthy `task_id`, `upload_url` and `upload_headers`. */
  predicate CreationAccepted(resp: Response) {
    && IsSuccess(resp.code)
    && resp.body.Some?
    && resp.body.value.Obj?
    && Truthy(Field(resp.body.value.fields, "task_id"))
    && Truthy(Field(resp.body.value.fields, "upload_url"))
    && Truthy(Field(resp.body.value.fields, "upload_headers"))
  }

  function CreatedTaskId(resp: Response): Json
    requires CreationAccepted(resp)
  {
    Field(resp.body.value.fields, "task_id")
  }

  function UploadUrl(resp: Response): Json
    requires CreationAccepted(resp)
  {
    Field(resp.body.value.fields, "upload_url")
  }

  function SuppliedUploadHeaders(resp: Response): Json
    requires CreationAccepted(resp)
  {
    Field(resp.body.value.fields, "upload_headers")
  }

  /**
   * The PUT of the file bytes to the storage URL. Supplied headers that are
   * not a dict cannot be copied and extended, so nothing is sent.
   */
  function Upload(w: World, url: Json, content: seq<byte>, supplied: Json): (r: Step<()>)
    ensures Extends(w, r.world) && r.world == w.(script := r.world.script, log := r.world.log)
    ensures !supplied.Obj? ==> r == Step(Err(Crash(NotADict)), w)
    ensures supplied.Obj? && |w.script| > 0 ==>
      Added(w, r.world) == [Exchange(UploadPut(url, UploadHeaders(supplied.fields, |content|), content), w.script[0])]
    ensures r.result.Ok? <==> supplied.Obj? && |w.script| > 0 && IsSuccess(w.script[0].code)
    ensures supplied.Obj? && |w.script| > 0 && !IsSuccess(w.script[0].code) ==>
      r.result == Err(UploadHttp(w.script[0].code))
  {
    if !supplied.Obj? then
      ExtendsRefl(w);
      Step(Err(Crash(NotADict)), w)
    else if |w.script| == 0 then
      ExtendsRefl(w);
      Step(Err(Exhausted), w)
    else
      var req := UploadPut(url, UploadHeaders(supplied.fields, |content|), content);
      SendExtends(w, req);
      var w1 := Send(w, req);
      if IsSuccess(w.script[0].code) then Step(Ok(()), w1) else Step(Err(UploadHttp(w.script[0].code)), w1)
  }

  /**
   * Task creation: one POST describing the image and the feature; the
   * upload follows only when the response carries all three required
   * fields, and the created task's id is returned only after the upload
   * succeeded.
   */
  function CreateTask(w: World, img: ImageFile, feature: Json): (r: Step<Json>)
    ensures Extends(w, r.world) && r.world == w.(script := r.world.script, log := r.world.log)
    ensures |Added(w, r.world)| <= 2
    ensures |w.script| > 0 ==>
      |Added(w, r.world)| >= 1 && Added(w, r.world)[0] == Exchange(CreateRequest(w, img, feature), w.script[0])
    ensures |w.script| > 0 && !CreationAccepted(w.script[0]) ==> |Added(w, r.world)| <= 1 && r.result.Err?
    ensures |Added(w, r.world)| == 2 ==>
      && CreationAccepted(w.script[0])
      && SuppliedUploadHeaders(w.script[0]).Obj?
      && Added(w, r.world)[1].req == UploadPut(UploadUrl(w.script[0]),
           UploadHeaders(SuppliedUploadHeaders(w.script[0]).fields, |img.content|), img.content)
    ensures r.result.Ok? <==>
      && |w.script| > 1
      && CreationAccepted(w.script[0])
      && SuppliedUploadHeaders(w.script[0]).Obj?
      && IsSuccess(w.script[1].code)
    ensures r.result.Ok? ==> r.result.value == CreatedTaskId(w.script[0]) && Truthy(r.result.value)
    ensures (|w.script| > 0 && IsSuccess(w.script[0].code) && w.script[0].body.Some? && w.script[0].body.value.Obj?
             && !CreationAccepted(w.script[0])) ==> r.result == Err(MissingTaskFields(w.script[0].body.value))
    ensures |w.script| > 0 && !IsSuccess(w.script[0].code) ==> r.result == Err(TaskRequestHttp(w.script[0].code))
  {
    if |w.script| == 0 then
      ExtendsRefl(w);
      Step(Err(Exhausted), w)
    else
      var resp := w.script[0];
      var req := CreateRequest(w, img, feature);
      SendExtends(w, req);
      var w1 := Send(w, req);
      if !IsSuccess(resp.code) then Step(Err(TaskRequestHttp(resp.code)), w1)
      else if resp.body.None? then Step(Err(Crash(BadJson)), w1)
      else if !resp.body.value.Obj? then Step(Err(Crash(NotADict)), w1)
      else if !CreationAccepted(resp) then Step(Err(MissingTaskFields(resp.body.value)), w1)
      else
        var u := Upload(w1, UploadUrl(resp), img.content, SuppliedUploadHeaders(resp));
        ExtendsTrans(w, w1, u.world);
        match u.result
        case Err(e) => Step(Err(e), u.world)
        case Ok(_) => Step(Ok(CreatedTaskId(resp)), u.world)
  }

  function PingRequest(w: World, taskId: Json): Request {
    ProcessPost(taskId, PingHeaders(w.ids, w.token))
  }

  /** The processing ping for a created task: one POST, failing on a non-2xx answer. */
  function Ping(w: World, taskId: Json): (r: Step<()>)
    ensures Extends(w, r.world) && r.world == w.(script := r.world.script, log := r.world.log)
    ensures |w.script| > 0 ==> Added(w, r.world) == [Exchange(PingRequest(w, taskId), w.script[0])]
    ensures r.result.Ok? <==> |w.script| > 0 && IsSuccess(w.script[0].code)
    ensures |w.script| > 0 && !IsSuccess(w.script[0].code) ==> r.result == Err(PingHttp(w.script[0].code))
  {
    if |w.script| == 0 then
      ExtendsRefl(w);
      Step(Err(Exhausted), w)
    else
      SendExtends(w, PingRequest(w, taskId));
      var w1 := Send(w, PingRequest(w, taskId));
      if IsSuccess(w.script[0].code) then Step(Ok(()), w1) else Step(Err(PingHttp(w.script[0].code)), w1)
  }

  function ReprocessRequest(w: World, baseTaskId: Json, feature: Json): Request {
    ReprocessPost(baseTaskId, ClientHeaders(w.ids, w.token, Some(JsonContentType)), Obj(map["feature" := feature]))
  }

  /** A reprocess response the client accepts: 2xx, a JSON object, and a truthy `task_id`. */
  predicate ReprocessAccepted(resp: Response) {
    IsSuccess(resp.code) && resp.body.Some? && resp.body.value.Obj?
    && Truthy(Field(resp.body.value.fields, "task_id"))
  }

  /**
   * Reprocessing a completed base task with a new feature: one POST scoped
   * to the base task, returning the new task's id, which must be truthy.
   */
  function Reprocess(w: World, baseTaskId: Json, feature: Json): (r: Step<Json>)
    ensures Extends(w, r.world) && r.world == w.(script := r.world.script, log := r.world.log)
    ensures |w.script| > 0 ==> Added(w, r.world) == [Exchange(ReprocessRequest(w, baseTaskId, feature), w.script[0])]
    ensures r.result.Ok? <==> |w.script| > 0 && ReprocessAccepted(w.script[0])
    ensures r.result.Ok? ==> Truthy(r.result.value) && r.result.value == Field(w.script[0].body.value.fields, "task_id")
    ensures (|w.script| > 0 && IsSuccess(w.script[0].code) && w.script[0].body.Some? && w.script[0].body.value.Obj?
             && !ReprocessAccepted(w.script[0])) ==> r.result == Err(NoReprocessTaskId(w.script[0].body.value))
    ensures |w.script| > 0 && !IsSuccess(w.script[0].code) ==> r.result == Err(ReprocessHttp(w.script[0].code))
  {
    if |w.script| == 0 then
      ExtendsRefl(w);
      Step(Err(Exhausted), w)
    else
      var resp := w.script[0];
      var req := ReprocessRequest(w, baseTaskId, feature);
      SendExtends(w, req);
      var w1 := Send(w, req);
      if !IsSuccess(resp.code) then Step(Err(ReprocessHttp(resp.code)), w1)
      else if resp.body.None? then Step(Err(Crash(BadJson)), w1)
      else if !resp.body.value.Obj? then Step(Err(Crash(NotADict)), w1)
      else
        var taskId := Field(resp.body.value.fields, "task_id");
        if !Truthy(taskId) then Step(Err(NoReprocessTaskId(resp.body.value)), w1)
        else Step(Ok(taskId), w1)
  }
}

=== FILE: token_store.dfy ===
/**
 * The on-disk cache of the session token: a JSON file holding
 * `{"identity_token": <token>}` at the client's token path.
 */
module TokenStore {
  import opened Wrappers
  import opened Values

  const TokenKey := "identity_token"

  /**
   * What the token path holds, as far as loading can tell: nothing, a file
   * that cannot be opened or read, bytes that are not valid text in the
   * platform encoding, text that is not valid JSON, or a decoded JSON
   * document.
   */
  datatype TokenFile = Absent | Unreadable | NotText | NotJson | Stored(doc: Json)

  /**
   * Why loading raises instead of setting the token: the decoded document
   * has no `get` (AttributeError), or the bytes fail to decode as text
   * (UnicodeDecodeError, which is neither of the two exceptions caught).
   */
  datatype LoadFault = NotAnObject | BadText

  /** The document a save writes. */
  function TokenDocument(token: Json): Json {
    Obj(map[TokenKey := token])
  }

  /**
   * Loading the cached token into a client whose current token is
   * `current`: the token the client holds afterwards, or the exception
   * that escapes.
   */
  function Load(file: TokenFile, current: Json): (r: Result<Json, LoadFault>)
    ensures file.Absent? ==> r == Ok(current)
    ensures file.Unreadable? || file.NotJson? ==> r == Ok(Null)
    ensures file.NotText? ==> r == Err(BadText)
    ensures file.Stored? ==> (r.Ok? <==> file.doc.Obj?)
    ensures file.Stored? && !file.doc.Obj? ==> r == Err(NotAnObject)
    ensures file.Stored? && file.doc.Obj? && TokenKey in file.doc.fields ==> r == Ok(file.doc.fields[TokenKey])
    ensures file.Stored? && file.doc.Obj? && TokenKey !in file.doc.fields ==> r == Ok(Null)
    ensures r.Ok? && r.value != current ==> file.Unreadable? || file.NotJson? || (file.Stored? && file.doc.Obj?)
  {
    match file
    case Absent => Ok(current)
    case Unreadable => Ok(Null)
    case NotText => Err(BadText)
    case NotJson => Ok(Null)
    case Stored(doc) => if doc.Obj? then Ok(Field(doc.fields, TokenKey)) else Err(NotAnObject)
  }

  /** Saving the in-memory token: the file is rewritten only when the token is truthy. */
  function Save(file: TokenFile, token: Json): (r: TokenFile)
    ensures !Truthy(token) ==> r == file
    ensures Truthy(token) ==> r.Stored? && r.doc.Obj? && TokenKey in r.doc.fields
    ensures Truthy(token) ==> r.doc.fields[TokenKey] == token && r.doc.fields.Keys == {TokenKey}
  {
    if Truthy(token) then Stored(TokenDocument(token)) else file
  }

  /** A token saved and then loaded, into a client with any current token, comes back unchanged. */
  lemma LoadAfterSave(file: TokenFile, token: Json, current: Json)
    requires Truthy(token)
    ensures Load(Save(file, token), current) == Ok(token)
  {
  }

  /** Saving the same token twice leaves the same file as saving it once. */
  lemma SaveIdempotent(file: TokenFile, token: Json)
    ensures Save(Save(file, token), token) == Save(file, token)
  {
  }

  /** Loading never invents a token: what it yields is the current token, `Null`, or the stored field. */
  lemma LoadYieldsStoredOrCurrent(file: TokenFile, current: Json)
    requires Load(file, current).Ok?
    ensures var t := Load(file, current).value;
      t == current || t == Null || (file.Stored? && file.doc.Obj? && TokenKey in file.doc.fields && file.doc.fields[TokenKey] == t)
  {
  }
}

=== FILE: values.dfy ===
/**
 * Decoded JSON documents, as Python's `json` module hands them to the client,
 * together with the two Python behaviours the client relies on: truthiness
 * and `dict.get` with a default.
 */
module Values {
  import opened Wrappers

  /** A decoded JSON value. Numbers are integers; floats are not modelled. */
  datatype Json =
    | Null
    | Bool(b: bool)
    | Num(n: int)
    | Str(s: string)
    | Arr(items: seq<Json>)
    | Obj(fields: map<string, Json>)

  /** Python truthiness of a decoded value: `None`, `False`, `0` and empty containers are false. */
  predicate Truthy(j: Json) {
    match j
    case Null => false
    case Bool(b) => b
    case Num(n) => n != 0
    case Str(s) => |s| > 0
    case Arr(items) => |items| > 0
    case Obj(fields) => |fields| > 0
  }

  /**
   * `j.get(key, default)`. Only a dict has `get`: on any other value Python
   * raises AttributeError, which is `None` here.
   */
  function Get(j: Json, key: string, default: Json): Option<Json> {
    match j
    case Obj(fields) => Some(if key in fields then fields[key] else default)
    case _ => None
  }

  /** `fields.get(key)` on a value already known to be a dict. */
  function Field(fields: map<string, Json>, key: string): Json {
    if key in fields then fields[key] else Null
  }
}

=== FILE: workflows.dfy ===
/**
 * The two public workflows, `process` (enhance) and `stylize`, and the
 * proofs that every log they produce follows the request protocol.
 */
module Workflows {
  import opened Wrappers
  import opened Values
  import opened Headers
  import opened Service
  import opened Session
  import opened Tasks
  import opened Polling
  import opened Artifact
  import opened Protocol

  /**
   * What a workflow step leaves among the downloaded files: a failure
   * writes none, a success writes `dest` and nothing else. The token file
   * is kept apart from these; a failed run may still have rewritten it
   * during login.
   */
  predicate WritesOnly<T>(w: World, r: Step<T>, dest: string) {
    && (r.result.Err? ==> r.world.files == w.files)
    && (r.result.Ok? ==> dest in r.world.files && r.world.files == w.files[dest := r.world.files[dest]])
  }

  /**
   * The download step shared by both workflows: without a truthy final URL
   * it raises before sending anything; with one it downloads it to `dest`.
   */
  function Deliver(w: World, finalUrl: Option<Json>, dest: string): (r: Step<()>)
    ensures Extends(w, r.world)
    ensures finalUrl.None? || !Truthy(finalUrl.value) ==> r.result == Err(NoFinalUrl) && r.world == w
    ensures r.result.Ok? ==>
      && finalUrl.Some? && |w.script| > 0
      && Added(w, r.world) == [Exchange(DownloadRequest(finalUrl.value), w.script[0])]
      && r.world.files == w.files[dest := Concat(w.script[0].chunks)]
    ensures finalUrl.Some? && Truthy(finalUrl.value) && |w.script| > 0 ==>
      && Added(w, r.world) == [Exchange(DownloadRequest(finalUrl.value), w.script[0])]
      && (r.result.Ok? <==> IsSuccess(w.script[0].code))
      && (!IsSuccess(w.script[0].code) ==> r.result == Err(DownloadHttp(w.script[0].code)))
    ensures WritesOnly(w, r, dest)
    ensures r.world.token == w.token && r.world.tokenFile == w.tokenFile
  {
    if finalUrl.None? || !Truthy(finalUrl.value) then
      ExtendsRefl(w);
      Step(Err(NoFinalUrl), w)
    else Download(w, finalUrl.value, dest)
  }

  /** Poll `taskId` to its end, then deliver the URL it yields to `dest`. */
  function Finish(w: World, taskId: Json, dest: string): (r: Step<()>)
    ensures WritesOnly(w, r, dest)
    ensures r.world.token == w.token && r.world.tokenFile == w.tokenFile
  {
    var q := Poll(w, taskId);
    if q.result.Err? then Step(Err(q.result.error), q.world)
    else Deliver(q.world, q.result.value, dest)
  }

  /** Login, then create and upload the enhance task both workflows start from; yields its id. */
  function Submit(w: World, img: ImageFile, now: string): (r: Step<Json>)
    ensures r.world.files == w.files
    ensures r.result.Ok? ==> Truthy(r.result.value) && Truthy(r.world.token)
  {
    var l := Login(w, now);
    if l.result.Err? then Step(Err(l.result.error), l.world)
    else CreateTask(l.world, img, Payload(Enhance))
  }

  /** `process`: a missing input raises first; then submit, ping, poll and download. */
  function Process(w: World, img: ImageFile, dest: string, now: string): (r: Step<()>)
    ensures !img.present ==> r == Step(Err(FileNotFound), w)
    ensures WritesOnly(w, r, dest)
  {
    if !img.present then Step(Err(FileNotFound), w)
    else
      var t := Submit(w, img, now);
      if t.result.Err? then Step(Err(t.result.error), t.world)
      else
        var p := Ping(t.world, t.result.value);
        if p.result.Err? then Step(Err(p.result.error), p.world)
        else Finish(p.world, t.result.value, dest)
  }

  /**
   * `stylize`: the `process` steps up to the base task's poll, which must
   * yield a truthy URL; then reprocess the base task with the style and
   * finish on the new task.
   */
  function Stylize(w: World, img: ImageFile, style: string, dest: string, now: string): (r: Step<()>)
    ensures !img.present ==> r == Step(Err(FileNotFound), w)
    ensures WritesOnly(w, r, dest)
  {
    if !img.present then Step(Err(FileNotFound), w)
    else
      var t := Submit(w, img, now);
      if t.result.Err? then Step(Err(t.result.error), t.world)
      else
        var p := Ping(t.world, t.result.value);
        if p.result.Err? then Step(Err(p.result.error), p.world)
        else Restyle(p.world, t.result.value, style, dest)
  }

  /** The stylize steps after the base task's ping. */
  function Restyle(w: World, baseId: Json, style: string, dest: string): (r: Step<()>)
    ensures WritesOnly(w, r, dest)
    ensures r.world.token == w.token && r.world.tokenFile == w.tokenFile
  {
    var q := Poll(w, baseId);
    if q.result.Err? then Step(Err(q.result.error), q.world)
    else if q.result.value.None? || !Truthy(q.result.value.value) then Step(Err(BaseTaskIncomplete), q.world)
    else
      var rp := Reprocess(q.world, baseId, Payload(Feature.Stylize(style)));
      if rp.result.Err? then Step(Err(rp.result.error), rp.world)
      else Finish(rp.world, rp.result.value, dest)
  }

  /**
   * A step that failed on an answer the client raises on, rather than by
   * running out of scripted answers. Every such failure must leave the
   * monitor halted.
   */
  predicate Fatal<T>(r: Step<T>) {
    r.result.Err? && !(r.result.error == Exhausted && r.world.script == [])
  }

  /** Two consecutive stretches of a world's history run the monitor like their concatenation. */
  lemma Chain(f: Feature, s0: Phase, s1: Phase, w0: World, w1: World, w2: World)
    requires Extends(w0, w1) && Extends(w1, w2)
    requires Run(f, s0, Added(w0, w1)) == Some(s1)
    ensures Extends(w0, w2) && Added(w0, w2) == Added(w0, w1) + Added(w1, w2)
    ensures Run(f, s0, Added(w0, w2)) == Run(f, s1, Added(w1, w2))
  {
    ExtendsTrans(w0, w1, w2);
    RunAppend(f, s0, Added(w0, w1), Added(w1, w2));
  }

  /** A setup exchange moves the monitor to `Minted` exactly when it mints a token. */
  lemma SetupFollows(f: Feature, w: World, now: string, s0: Phase)
    requires s0 == Start || s0 == Refused
    ensures var s := Setup(w, now);
      && Run(f, s0, Added(w, s.world)).Some?
      && (s.result.Ok? ==> Run(f, s0, Added(w, s.world)) == Some(Minted))
      && (Fatal(s) ==> Run(f, s0, Added(w, s.world)) == Some(Halted))
      && Run(f, s0, Added(w, s.world)) != Some(Delivered)
  {
    if |w.script| > 0 {
      RunOne(f, s0, Exchange(SetupRequest(w.ids, w.token, now), w.script[0]));
    }
  }

  /** The probe after a setup moves the monitor to `Authed` when it is accepted. */
  lemma ConfirmFollows(f: Feature, w: World)
    requires Truthy(w.token)
    ensures var c := Confirm(w);
      && Run(f, Minted, Added(w, c.world)).Some?
      && (c.result.Ok? ==> Run(f, Minted, Added(w, c.world)) == Some(Authed))
      && (Fatal(c) ==> Run(f, Minted, Added(w, c.world)) == Some(Halted))
      && Run(f, Minted, Added(w, c.world)) != Some(Delivered)
  {
    if |w.script| > 0 {
      RunOne(f, Minted, Exchange(ProbeRequest(w.ids, w.token), w.script[0]));
    }
  }

  /** The bootstrap, from before any token was accepted, is accepted by the monitor and ends authenticated on success. */
  lemma BootstrapFollows(f: Feature, w: World, now: string, s0: Phase)
    requires s0 == Start || s0 == Refused
    ensures var b := Bootstrap(w, now);
      && Run(f, s0, Added(w, b.world)).Some?
      && (b.result.Ok? ==> Run(f, s0, Added(w, b.world)) == Some(Authed))
      && (Fatal(b) ==> Run(f, s0, Added(w, b.world)) == Some(Halted))
      && Run(f, s0, Added(w, b.world)) != Some(Delivered)
  {
    var b := Bootstrap(w, now);
    var s := Setup(w, now);
    SetupFollows(f, w, now, s0);
    if s.result.Ok? {
      var c := Confirm(s.world);
      assert b == c;
      ConfirmFollows(f, s.world);
      Chain(f, s0, Minted, w, s.world, c.world);
    }
  }

  /** Login, from the start, is accepted by the monitor and ends authenticated on success. */
  lemma LoginFollows(f: Feature, w: World, now: string)
    ensures var l := Login(w, now);
      && Run(f, Start, Added(w, l.world)).Some?
      && (l.result.Ok? ==> Run(f, Start, Added(w, l.world)) == Some(Authed))
      && (LoadedToken(w).Ok? && Fatal(l) ==> Run(f, Start, Added(w, l.world)) == Some(Halted))
      && Run(f, Start, Added(w, l.world)) != Some(Delivered)
  {
    var l := Login(w, now);
    match LoadedToken(w)
    case Err(_) =>
    case Ok(token) =>
      var w0 := w.(token := token);
      assert w0.log == w.log;
      if !Truthy(token) {
        BootstrapFollows(f, w0, now, Start);
      } else {
        ReprobeFollows(f, w0, now);
      }
  }

  /** Probing a truthy cached token, and bootstrapping after a refusal, is accepted from the start. */
  lemma ReprobeFollows(f: Feature, w: World, now: string)
    requires Truthy(w.token)
    ensures var r := Reprobe(w, now);
      && Run(f, Start, Added(w, r.world)).Some?
      && (r.result.Ok? ==> Run(f, Start, Added(w, r.world)) == Some(Authed))
      && (Fatal(r) ==> Run(f, Start, Added(w, r.world)) == Some(Halted))
      && Run(f, Start, Added(w, r.world)) != Some(Delivered)
  {
    if |w.script| > 0 {
      var p := Profile(w);
      RunOne(f, Start, Exchange(ProbeRequest(w.ids, w.token), w.script[0]));
      if p.result == Ok(false) {
        var b := Bootstrap(p.world, now);
        BootstrapFollows(f, p.world, now, Refused);
        Chain(f, Start, Refused, w, p.world, b.world);
      }
    }
  }

  /** The upload to the URL the creation response named moves the monitor to `Uploaded` on success. */
  lemma UploadFollows(f: Feature, w: World, taskId: Json, url: Json, content: seq<byte>, supplied: Json)
    ensures var u := Upload(w, url, content, supplied);
      && Run(f, Created(taskId, url, supplied), Added(w, u.world)).Some?
      && (u.result.Ok? ==> Run(f, Created(taskId, url, supplied), Added(w, u.world)) == Some(Uploaded(taskId)))
      && (supplied.Obj? && Fatal(u) ==> Run(f, Created(taskId, url, supplied), Added(w, u.world)) == Some(Halted))
      && Run(f, Created(taskId, url, supplied), Added(w, u.world)) != Some(Delivered)
  {
    if supplied.Obj? && |w.script| > 0 {
      var req := UploadPut(url, UploadHeaders(supplied.fields, |content|), content);
      RunOne(f, Created(taskId, url, supplied), Exchange(req, w.script[0]));
    }
  }

  /** Task creation with the enhance payload, once authenticated, is accepted and ends uploaded on success. */
  lemma CreateFollows(f: Feature, w: World, img: ImageFile)
    ensures var c := CreateTask(w, img, Payload(Enhance));
      && Run(f, Authed, Added(w, c.world)).Some?
      && (c.result.Ok? ==> Run(f, Authed, Added(w, c.world)) == Some(Uploaded(c.result.value)))
      && (Fatal(c) ==> Run(f, Authed, Added(w, c.world)) == Some(Halted))
      && Run(f, Authed, Added(w, c.world)) != Some(Delivered)
  {
    var c := CreateTask(w, img, Payload(Enhance));
    if |w.script| > 0 {
      var req := CreateRequest(w, img, Payload(Enhance));
      assert RequestsEnhance(req.body);
      RunOne(f, Authed, Exchange(req, w.script[0]));
      if CreationAccepted(w.script[0]) && SuppliedUploadHeaders(w.script[0]).Obj? {
        CreateAcceptedFollows(f, w, img);
      } else {
        CreateRefusedFollows(f, w, img);
      }
    } else {
      assert Added(w, c.world) == [];
    }
  }

  /** A creation answer that is refused, or names upload headers that are not a dict, halts the monitor after that one exchange. */
  lemma CreateRefusedFollows(f: Feature, w: World, img: ImageFile)
    requires |w.script| > 0 && !(CreationAccepted(w.script[0]) && SuppliedUploadHeaders(w.script[0]).Obj?)
    ensures var c := CreateTask(w, img, Payload(Enhance));
      && Added(w, c.world) == [Exchange(CreateRequest(w, img, Payload(Enhance)), w.script[0])]
      && Run(f, Authed, Added(w, c.world)) == Some(Halted)
      && c.result.Err?
  {
    var c := CreateTask(w, img, Payload(Enhance));
    var req := CreateRequest(w, img, Payload(Enhance));
    SendExtends(w, req);
    assert c.world == Send(w, req);
    assert RequestsEnhance(req.body);
    RunOne(f, Authed, Exchange(req, w.script[0]));
  }

  /** The accepted-creation case of `CreateFollows`: the upload continues from the created phase. */
  lemma CreateAcceptedFollows(f: Feature, w: World, img: ImageFile)
    requires |w.script| > 0 && CreationAccepted(w.script[0]) && SuppliedUploadHeaders(w.script[0]).Obj?
    ensures var c := CreateTask(w, img, Payload(Enhance));
      && Run(f, Authed, Added(w, c.world)).Some?
      && (c.result.Ok? ==> Run(f, Authed, Added(w, c.world)) == Some(Uploaded(c.result.value)))
      && (Fatal(c) ==> Run(f, Authed, Added(w, c.world)) == Some(Halted))
      && Run(f, Authed, Added(w, c.world)) != Some(Delivered)
  {
    var resp := w.script[0];
    var req := CreateRequest(w, img, Payload(Enhance));
    SendExtends(w, req);
    var w1 := Send(w, req);
    var created := Created(CreatedTaskId(resp), UploadUrl(resp), SuppliedUploadHeaders(resp));
    assert RequestsEnhance(req.body);
    CreateStep(f, Exchange(req, resp));
    var u := Upload(w1, UploadUrl(resp), img.content, SuppliedUploadHeaders(resp));
    UploadFollows(f, w1, CreatedTaskId(resp), UploadUrl(resp), img.content, SuppliedUploadHeaders(resp));
    Chain(f, Authed, created, w, w1, u.world);
    CreateThenUpload(w, img, Payload(Enhance));
  }

  /** An accepted creation answer with dict upload headers moves the monitor from `Authed` to `Created`. */
  lemma CreateStep(f: Feature, e: Exchange)
    requires e.req.TaskPost? && RequestsEnhance(e.req.body)
    requires CreationAccepted(e.resp) && SuppliedUploadHeaders(e.resp).Obj?
    ensures Run(f, Authed, [e]) == Some(Created(CreatedTaskId(e.resp), UploadUrl(e.resp), SuppliedUploadHeaders(e.resp)))
  {
    RunOne(f, Authed, e);
  }

  /** An accepted creation hands over to the upload: the task ends where the upload ends, and succeeds when it does. */
  lemma CreateThenUpload(w: World, img: ImageFile, feature: Json)
    requires |w.script| > 0 && CreationAccepted(w.script[0])
    ensures var resp := w.script[0];
      var u := Upload(Send(w, CreateRequest(w, img, feature)), UploadUrl(resp), img.content, SuppliedUploadHeaders(resp));
      var c := CreateTask(w, img, feature);
      && c.world == u.world && (c.result.Ok? <==> u.result.Ok?)
      && (c.result.Err? ==> c.result.error == u.result.error)
  {
  }

  /** The processing ping of the uploaded task is accepted and starts the poll on success. */
  lemma PingFollows(f: Feature, w: World, taskId: Json)
    ensures var p := Ping(w, taskId);
      && Run(f, Uploaded(taskId), Added(w, p.world)).Some?
      && (p.result.Ok? ==> Run(f, Uploaded(taskId), Added(w, p.world)) == Some(Waiting(taskId, f.Enhance?)))
      && (Fatal(p) ==> Run(f, Uploaded(taskId), Added(w, p.world)) == Some(Halted))
      && Run(f, Uploaded(taskId), Added(w, p.world)) != Some(Delivered)
  {
    if |w.script| > 0 {
      RunOne(f, Uploaded(taskId), Exchange(PingRequest(w, taskId), w.script[0]));
    }
  }

  /**
   * Polling `taskId` is accepted by the monitor; a URL leaves it ready with
   * that URL, a completion without one halts it.
   */
  lemma {:induction false} PollFollows(f: Feature, w: World, taskId: Json, final: bool)
    ensures var q := Poll(w, taskId);
      && Run(f, Waiting(taskId, final), Added(w, q.world)).Some?
      && (q.result.Ok? && q.result.value.Some? ==>
            Run(f, Waiting(taskId, final), Added(w, q.world)) == Some(Ready(taskId, q.result.value.value, final)))
      && (q.result.Ok? && q.result.value.None? ==>
            Run(f, Waiting(taskId, final), Added(w, q.world)) == Some(Halted))
      && (Fatal(q) ==> Run(f, Waiting(taskId, final), Added(w, q.world)) == Some(Halted))
      && (q.result.Err? && !Fatal(q) ==> Run(f, Waiting(taskId, final), Added(w, q.world)) == Some(Waiting(taskId, final)))
    decreases |w.script|
  {
    var q := Poll(w, taskId);
    if |w.script| > 0 {
      var req := StatusRequest(w, taskId);
      var w1 := Send(w, req);
      var v := Judge(w.script[0]);
      PollHead(f, w, taskId, final);
      if v == Continue {
        assert q == Poll(w1, taskId);
        PollFollows(f, w1, taskId, final);
        Chain(f, Waiting(taskId, final), Waiting(taskId, final), w, w1, q.world);
      } else {
        assert q == Step(Outcome(v), w1);
      }
    }
  }

  /** One status exchange moves the monitor as its verdict says. */
  lemma PollHead(f: Feature, w: World, taskId: Json, final: bool)
    requires |w.script| > 0
    ensures Extends(w, Send(w, StatusRequest(w, taskId)))
    ensures Run(f, Waiting(taskId, final), Added(w, Send(w, StatusRequest(w, taskId))))
      == Some(AfterStatus(taskId, final, w.script[0]))
  {
    var req := StatusRequest(w, taskId);
    SendExtends(w, req);
    RunOne(f, Waiting(taskId, final), Exchange(req, w.script[0]));
  }

  /** Reprocessing the completed base task with the style is accepted and starts the final poll on the new id. */
  lemma ReprocessFollows(style: string, w: World, taskId: Json, url: Json)
    ensures var f := Feature.Stylize(style);
      var rp := Reprocess(w, taskId, Payload(f));
      && Run(f, Ready(taskId, url, false), Added(w, rp.world)).Some?
      && (rp.result.Ok? ==> Run(f, Ready(taskId, url, false), Added(w, rp.world)) == Some(Waiting(rp.result.value, true)))
      && (Fatal(rp) ==> Run(f, Ready(taskId, url, false), Added(w, rp.world)) == Some(Halted))
      && Run(f, Ready(taskId, url, false), Added(w, rp.world)) != Some(Delivered)
  {
    var f := Feature.Stylize(style);
    var rp := Reprocess(w, taskId, Payload(f));
    if |w.script| > 0 {
      var e := Exchange(ReprocessRequest(w, taskId, Payload(f)), w.script[0]);
      ReprocessStep(style, taskId, url, e);
      RunOne(f, Ready(taskId, url, false), e);
    } else {
      Consumes(w, rp.world);
    }
  }

  /** The monitor's step on a reprocess exchange of the base task. */
  lemma ReprocessStep(style: string, taskId: Json, url: Json, e: Exchange)
    requires e.req.ReprocessPost? && e.req.taskId == taskId
    requires e.req.body == Obj(map["feature" := Payload(Feature.Stylize(style))])
    ensures Next(Feature.Stylize(style), Ready(taskId, url, false), e)
      == Some(if ReprocessAccepted(e.resp) then Waiting(Field(e.resp.body.value.fields, "task_id"), true) else Halted)
  {
  }

  /** Downloading the final URL is accepted and delivers on success. */
  lemma DownloadFollows(f: Feature, w: World, taskId: Json, url: Json, dest: string)
    ensures var d := Download(w, url, dest);
      && Run(f, Ready(taskId, url, true), Added(w, d.world)).Some?
      && (d.result.Ok? <==> Run(f, Ready(taskId, url, true), Added(w, d.world)) == Some(Delivered))
      && (Fatal(d) ==> Run(f, Ready(taskId, url, true), Added(w, d.world)) == Some(Halted))
  {
    if |w.script| > 0 {
      RunOne(f, Ready(taskId, url, true), Exchange(DownloadRequest(url), w.script[0]));
    }
  }

  /** What a successful run leaves at `dest`: the chunks of the last response of its log, in order. */
  predicate Delivers(es: seq<Exchange>, files: map<string, seq<byte>>, dest: string) {
    |es| > 0 && dest in files && files[dest] == Concat(es[|es| - 1].resp.chunks)
  }

  /** Polling a final task and delivering its URL is accepted, and a success writes the download. */
  lemma FinishFollows(f: Feature, w: World, taskId: Json, dest: string)
    ensures var r := Finish(w, taskId, dest);
      && Extends(w, r.world)
      && Run(f, Waiting(taskId, true), Added(w, r.world)).Some?
      && (r.result.Ok? ==>
            && Run(f, Waiting(taskId, true), Added(w, r.world)) == Some(Delivered)
            && Delivers(Added(w, r.world), r.world.files, dest))
      && (Fatal(r) ==> Run(f, Waiting(taskId, true), Added(w, r.world)) == Some(Halted))
      && (Run(f, Waiting(taskId, true), Added(w, r.world)) == Some(Delivered) ==> r.result.Ok?)
  {
    var r := Finish(w, taskId, dest);
    var q := Poll(w, taskId);
    PollFollows(f, w, taskId, true);
    if q.result.Ok? && q.result.value.Some? && Truthy(q.result.value.value) {
      var url := q.result.value.value;
      assert r == Download(q.world, url, dest);
      DownloadFollows(f, q.world, taskId, url, dest);
      Chain(f, Waiting(taskId, true), Ready(taskId, url, true), w, q.world, r.world);
    } else {
      assert r.world == q.world && r.result.Err?;
    }
  }

  /** Login followed by the creation of the enhance task is accepted, and a success ends uploaded. */
  lemma SubmitFollows(f: Feature, w: World, img: ImageFile, now: string)
    ensures var t := Submit(w, img, now);
      && Extends(w, t.world)
      && Run(f, Start, Added(w, t.world)).Some?
      && (t.result.Ok? ==> Run(f, Start, Added(w, t.world)) == Some(Uploaded(t.result.value)))
      && (LoadedToken(w).Ok? && Fatal(t) ==> Run(f, Start, Added(w, t.world)) == Some(Halted))
      && Run(f, Start, Added(w, t.world)) != Some(Delivered)
  {
    var l := Login(w, now);
    LoginFollows(f, w, now);
    if l.result.Ok? {
      var c := CreateTask(l.world, img, Payload(Enhance));
      CreateFollows(f, l.world, img);
      Chain(f, Start, Authed, w, l.world, c.world);
    }
  }

  /** The last exchange of a log that ends with a non-empty stretch is that stretch's last one. */
  lemma DeliversAppend(a: seq<Exchange>, b: seq<Exchange>, files: map<string, seq<byte>>, dest: string)
    requires Delivers(b, files, dest)
    ensures Delivers(a + b, files, dest)
  {
    assert (a + b)[|a + b| - 1] == b[|b| - 1];
  }

  /**
   * Every log `process` produces, from any world, is accepted by the
   * monitor for the enhance feature; a success has delivered and wrote the
   * last response's chunks to `dest`; a missing input sends nothing; any
   * other failure than running out of answers leaves the monitor halted.
   */
  lemma ProcessFollowsProtocol(w: World, img: ImageFile, dest: string, now: string)
    ensures var r := Process(w, img, dest, now);
      && Extends(w, r.world)
      && Run(Enhance, Start, Added(w, r.world)).Some?
      && (!img.present ==> r.result == Err(FileNotFound) && Added(w, r.world) == [])
      && (r.result.Ok? ==>
            && Run(Enhance, Start, Added(w, r.world)) == Some(Delivered)
            && Delivers(Added(w, r.world), r.world.files, dest))
      && (img.present && LoadedToken(w).Ok? && Fatal(r) ==> Run(Enhance, Start, Added(w, r.world)) == Some(Halted))
      && (Run(Enhance, Start, Added(w, r.world)) == Some(Delivered) ==> r.result.Ok?)
  {
    var r := Process(w, img, dest, now);
    if !img.present {
      ExtendsRefl(w);
    } else {
      var t := Submit(w, img, now);
      SubmitFollows(Enhance, w, img, now);
      if t.result.Ok? {
        var id := t.result.value;
        var p := Ping(t.world, id);
        PingFollows(Enhance, t.world, id);
        Chain(Enhance, Start, Uploaded(id), w, t.world, p.world);
        if p.result.Ok? {
          assert r == Finish(p.world, id, dest);
          FinishFollows(Enhance, p.world, id, dest);
          Chain(Enhance, Start, Waiting(id, true), w, p.world, r.world);
          if r.result.Ok? {
            DeliversAppend(Added(w, p.world), Added(p.world, r.world), r.world.files, dest);
          }
        }
      }
    }
  }

  /**
   * `process` sends at most two probes and one setup, creates, uploads,
   * pings and downloads at most once, and never reprocesses.
   */
  lemma ProcessRequestBudget(w: World, img: ImageFile, dest: string, now: string)
    ensures var r := Process(w, img, dest, now);
      Extends(w, r.world) &&
      var es := Added(w, r.world);
      && Count(ProbeKind, es) <= 2 && Count(SetupKind, es) <= 1
      && Count(CreateKind, es) <= 1 && Count(UploadKind, es) <= 1 && Count(PingKind, es) <= 1
      && Count(DownloadKind, es) <= 1 && Count(ReprocessKind, es) == 0
  {
    ProcessFollowsProtocol(w, img, dest, now);
    var es := Added(w, Process(w, img, dest, now).world);
    AtMostOnceEach(Enhance, es);
    EnhanceNeverReprocesses(Start, es);
  }

  /** The stylize steps after the base ping are accepted, and a success has delivered. */
  lemma RestyleFollows(w: World, baseId: Json, style: string, dest: string)
    ensures var f := Feature.Stylize(style);
      var r := Restyle(w, baseId, style, dest);
      && Extends(w, r.world)
      && Run(f, Waiting(baseId, false), Added(w, r.world)).Some?
      && (r.result.Ok? ==>
            && Run(f, Waiting(baseId, false), Added(w, r.world)) == Some(Delivered)
            && Delivers(Added(w, r.world), r.world.files, dest))
      && (Fatal(r) ==> Run(f, Waiting(baseId, false), Added(w, r.world)) == Some(Halted))
      && (Run(f, Waiting(baseId, false), Added(w, r.world)) == Some(Delivered) ==> r.result.Ok?)
  {
    var f := Feature.Stylize(style);
    var r := Restyle(w, baseId, style, dest);
    var q := Poll(w, baseId);
    PollFollows(f, w, baseId, false);
    if q.result.Ok? && q.result.value.Some? && Truthy(q.result.value.value) {
      var url := q.result.value.value;
      var rp := Reprocess(q.world, baseId, Payload(f));
      ReprocessFollows(style, q.world, baseId, url);
      Chain(f, Waiting(baseId, false), Ready(baseId, url, false), w, q.world, rp.world);
      if rp.result.Ok? {
        var id := rp.result.value;
        assert r == Finish(rp.world, id, dest);
        FinishFollows(f, rp.world, id, dest);
        Chain(f, Waiting(baseId, false), Waiting(id, true), w, rp.world, r.world);
        if r.result.Ok? {
          DeliversAppend(Added(w, rp.world), Added(rp.world, r.world), r.world.files, dest);
        }
      } else {
        assert r.world == rp.world;
      }
    } else {
      assert r.world == q.world && r.result.Err?;
    }
  }

  /**
   * Every log `stylize` produces is accepted by the monitor for its style;
   * a success has delivered and wrote the last response's chunks to `dest`;
   * any other failure than running out of answers leaves the monitor halted.
   */
  lemma StylizeFollowsProtocol(w: World, img: ImageFile, style: string, dest: string, now: string)
    ensures var f := Feature.Stylize(style);
      var r := Stylize(w, img, style, dest, now);
      && Extends(w, r.world)
      && Run(f, Start, Added(w, r.world)).Some?
      && (!img.present ==> r.result == Err(FileNotFound) && Added(w, r.world) == [])
      && (r.result.Ok? ==>
            && Run(f, Start, Added(w, r.world)) == Some(Delivered)
            && Delivers(Added(w, r.world), r.world.files, dest))
      && (img.present && LoadedToken(w).Ok? && Fatal(r) ==> Run(f, Start, Added(w, r.world)) == Some(Halted))
      && (Run(f, Start, Added(w, r.world)) == Some(Delivered) ==> r.result.Ok?)
  {
    var f := Feature.Stylize(style);
    var r := Stylize(w, img, style, dest, now);
    if !img.present {
      ExtendsRefl(w);
    } else {
      var t := Submit(w, img, now);
      SubmitFollows(f, w, img, now);
      if t.result.Ok? {
        var id := t.result.value;
        var p := Ping(t.world, id);
        PingFollows(f, t.world, id);
        Chain(f, Start, Uploaded(id), w, t.world, p.world);
        if p.result.Ok? {
          assert r == Restyle(p.world, id, style, dest);
          RestyleFollows(p.world, id, style, dest);
          Chain(f, Start, Waiting(id, false), w, p.world, r.world);
          if r.result.Ok? {
            DeliversAppend(Added(w, p.world), Added(p.world, r.world), r.world.files, dest);
          }
        }
      }
    }
  }

  /** `stylize` sends at most two probes and one setup, and each later kind of request at most once. */
  lemma StylizeRequestBudget(w: World, img: ImageFile, style: string, dest: string, now: string)
    ensures var r := Stylize(w, img, style, dest, now);
      Extends(w, r.world) &&
      var es := Added(w, r.world);
      && Count(ProbeKind, es) <= 2 && Count(SetupKind, es) <= 1
      && Count(CreateKind, es) <= 1 && Count(UploadKind, es) <= 1 && Count(PingKind, es) <= 1
      && Count(ReprocessKind, es) <= 1 && Count(DownloadKind, es) <= 1
  {
    StylizeFollowsProtocol(w, img, style, dest, now);
    AtMostOnceEach(Feature.Stylize(style), Added(w, Stylize(w, img, style, dest, now).world));
  }
}

=== FILE: wrappers.dfy ===
/** Option and Result, the two failure-carrying shapes the rest of the model uses. */
module Wrappers {

  /** Python's `Optional[T]`: either no value (`None`) or a value. */
  datatype Option<+T> = None | Some(value: T)

  /** The outcome of an operation that either returns a value or raises. */
  datatype Result<+T, +E> = Ok(value: T) | Err(error: E)
}
